=== FILE: README.md ===
# AVL tree with a threaded ring — a Dafny model

This project models the core of a small Java library: an AVL search tree
(`AVLNode`) and the collection built on it (`AVLTree`). Each node also sits on
a doubly linked ring of `prev`/`next` pointers in ascending order, and the
collection's iterator walks that ring. Duplicates are allowed. A value equal to
the node's goes to the right on insertion.

The model has these modules:

- `AvlNode` (`avl_node.dfy`) models the tree as an immutable datatype
  `Tree = Leaf | Node(left, value, right, height, childrenCount)`. It keeps the
  cached height and size fields as the Java class stores them. `Exact(t)` says
  those caches are right, `Avl(t)` adds the balance condition, and `Ordered(t)`
  is the search-tree order. The module covers `update`, the rotations,
  `balance`, `insert`, `findMin`/`findMax`, `removeMin`, `find`, `remove` and
  `get`.
- `SplitJoin` (`split_join.dfy`) models `balanceBranch`, `join` and `split`.
  `split` is written as a recursion over the tree. Each node that goes to one
  side is rebuilt with `balanceBranch`.
- `Ring` (`ring.dfy`) models the `prev`/`next` pointers as two maps from node
  identities to node identities. A missing key stands for `null`.
  `RingOf(k, order)` says that the links close into one ring through the
  identities in `order`. The module states how each pointer update of the Java
  code keeps or breaks that ring.
- `Threading` (`threading.dfy`) ties the ring to the tree. The i-th identity
  of the ring stands for the node holding the i-th value of the in-order
  sequence. This correspondence is positional. Where values are read off the
  ring, a map from identities to values is tied to the tree by `Valued`. The
  module shows that `insert`, `remove` and `join` keep the two in step. For
  `split` this holds only for the corrected link update
  (`Threading.SplitThreaded`). The link update as written cuts the ring
  (`Threading.SplitRightEmptyCuts`, `Threading.CutIterationFails`). The module
  also shows that walking the `next` links, as the iterator does, returns the
  values in order.
- `AvlTree` (`avl_tree.dfy`) models the collection methods, the interval
  operations and the iterator's cursor. In-place updates of `head` become
  returned trees. Thrown exceptions become `Result.Failure`.
- `RangeExamples` (`range_examples.dfy`) works out the repository's own test
  scenarios on the tree holding 0..1024.
- `Seqs` and `Results` (`seqs.dfy`, `results.dfy`) are the helper
  definitions.

Values are mathematical integers, standing in for the generic
`Comparable` element type. A Java `null` argument is `Option.None`.

Where the code and the tests disagree, the model follows the code:

- `AVLTreeTest.retainOverlappingInterval` expects iteration after
  `retainSegment(513, 22)` to start at 513. The iterator starts at `findMin`
  (`AVLTree.java:140`), so the code yields 0..22 first. `IterationOrder` proves
  the ascending order.
- `removeInterval(513, 22)` with open bounds becomes
  `retainInterval(22, 513, false, false)`. That keeps the closed range
  [22, 513], which is 492 values. This agrees with the test.

## Model

| member | source | states |
|---|---|---|
| AvlNode.ExactMeasures | src/avltree/AVLNode.java:101-116 | when the cached fields are exact, getHeight is the tree's depth and getNodeCount is the number of values it holds |
| AvlNode.BalanceFactorMeasures | src/avltree/AVLNode.java:105-112 | with exact caches, getBalanceFactor is the right subtree's depth minus the left's (0 for null), isBalanced holds exactly when the depths differ by at most one, and every node of a balanced tree passes isBalanced |
| AvlNode.Update | src/avltree/AVLNode.java:118-125 | update leaves the value sequence alone; the height becomes one more than the taller child; the count becomes the sum of both children plus one; the caches are exact when the children's are |
| AvlNode.RotateRight | src/avltree/AVLNode.java:127-135 | the right rotation keeps the in-order sequence; it lifts the left child to the root and moves that child's right subtree under the old root; the caches stay exact |
| AvlNode.RotateLeft | src/avltree/AVLNode.java:137-145 | the mirror of the right rotation, with the same guarantees |
| AvlNode.Balance | src/avltree/AVLNode.java:147-167 | balance keeps the in-order sequence; it returns a node exactly when given one |
| AvlNode.PushDownLeft | src/avltree/AVLNode.java:150-156 | on a right-heavy node with AVL children, balance keeps the old left child and root value together as the new left child; the pieces are AVL with exact caches, and their heights are fixed relative to the right child's height |
| AvlNode.PushDownRight | src/avltree/AVLNode.java:158-164 | the mirror case of PushDownLeft, for a left-heavy node |
| AvlNode.BalanceRestoresAvl | src/avltree/AVLNode.java:147-167 | a node with AVL children whose heights differ by at most two becomes an AVL tree; its height stays within one of the taller child's height plus one, and is exactly that when the children already differed by at most one |
| AvlNode.Insert | src/avltree/AVLNode.java:169-191 | insert returns a node; the values afterwards are the values before plus one more copy of x |
| AvlNode.InsertPlacement | src/avltree/AVLNode.java:169-191 | insert puts x into the in-order sequence at one position, leaving every other value in place |
| AvlNode.InsertIndexBounds | src/avltree/AVLNode.java:174-188 | in a search tree that position comes after every value at most x and before every value above x, so equal values keep insertion order |
| AvlNode.InsertOrdered | src/avltree/AVLNode.java:169-191 | insert keeps the search-tree order |
| AvlNode.InsertAvl | src/avltree/AVLNode.java:169-191 | insert keeps the AVL invariant; the height grows by at most one |
| AvlNode.InsertCount | src/avltree/AVLNode.java:169-191 | after insert, getNodeCount is one more than before |
| AvlNode.FindMin | src/avltree/AVLNode.java:193-195 | findMin returns null only for the empty tree; otherwise it returns a node with no left child holding the first value in order |
| AvlNode.FindMax | src/avltree/AVLNode.java:197-199 | findMax returns a node with no right child holding the last value in order, and null only for the empty tree |
| AvlNode.RemoveMin | src/avltree/AVLNode.java:201-212 | removeMin drops exactly the first value of the in-order sequence |
| AvlNode.RemoveMinAvl | src/avltree/AVLNode.java:201-212 | removeMin keeps the AVL invariant and lowers the height by at most one |
| AvlNode.Find | src/avltree/AVLNode.java:214-228 | find returns only a node holding x; in a search tree it finds x whenever x is present |
| AvlNode.Remove | src/avltree/AVLNode.java:230-258 | remove of an absent value leaves the value sequence unchanged |
| AvlNode.RemovePlacement | src/avltree/AVLNode.java:230-258 | remove deletes one occurrence of x from the in-order sequence at the position the descent reaches, and nothing else |
| AvlNode.RemoveIndexFinds | src/avltree/AVLNode.java:234-238 | in a search tree the descent reaches an occurrence exactly when x is present |
| AvlNode.RemoveMultiset | src/avltree/AVLNode.java:230-258 | in a search tree, remove takes away one copy of x, or none when x is absent |
| AvlNode.RemoveAvl | src/avltree/AVLNode.java:230-258 | remove keeps the AVL invariant and lowers the height by at most one |
| AvlNode.RemoveOrdered | src/avltree/AVLNode.java:230-258 | remove keeps the search-tree order |
| AvlNode.RemoveAsWritten | src/avltree/AVLNode.java:240-244 | the code as written throws a NullPointerException exactly when the node to delete has no children and a null parent pointer; otherwise it agrees with Remove |
| AvlNode.AddThenRemoveFails | src/avltree/AVLNode.java:88-89 | adding x to an empty tree and then removing it should give the empty tree, but the code as written throws |
| AvlNode.Get | src/avltree/AVLNode.java:344-355 | get(index) returns the index-th value in order for an index in range; any other index is an IndexOutOfBoundsException |
| SplitJoin.BalanceBranch | src/avltree/AVLNode.java:328-342 | a node over two AVL subtrees of any heights becomes an AVL tree with the same in-order sequence; its height lies between the taller child's height and one more than that |
| SplitJoin.BranchRightHeavy | src/avltree/AVLNode.java:332-334 | the right-heavy step of balanceBranch: rotate, then repair the lowered side and the root again; the result is AVL, with the same sequence and a bounded height |
| SplitJoin.BranchLeftHeavy | src/avltree/AVLNode.java:332-334 | the mirror step, for a left-heavy node |
| SplitJoin.Join | src/avltree/AVLNode.java:260-277 | join of two AVL trees is an AVL tree holding the first tree's values followed by the second's; an empty side returns the other side unchanged |
| SplitJoin.JoinOrdered | src/avltree/AVLNode.java:260-277 | join of two search trees, all of whose first values are at most the second's, is a search tree |
| SplitJoin.Split | src/avltree/AVLNode.java:279-326 | split returns two AVL trees whose in-order sequences concatenate to the original one |
| SplitJoin.SplitPartition | src/avltree/AVLNode.java:292-316 | in a search tree, split sends left exactly the values below the key, plus the values equal to it when valueLeft holds |
| SplitJoin.SplitOrdered | src/avltree/AVLNode.java:279-326 | both parts of a split search tree are search trees |
| Ring.SetPrev | src/avltree/AVLNode.java:57-64 | setPrev on a non-null node points its prev at the argument and, when that is not null, points the argument's next back at the node; a null argument clears the field and leaves every other prev alone; a null node changes nothing |
| Ring.SetNext | src/avltree/AVLNode.java:66-73 | setNext on a non-null node points its next at the argument and, when that is not null, points the argument's prev back at the node; a null argument clears the field and leaves every other next alone; a null node changes nothing |
| Ring.NewNode | src/avltree/AVLNode.java:30-37 | the five-argument constructor links the given prev to the new node and the new node to the given next, leaves a null field null, and changes no other node's pointers except the two neighbours' |
| Ring.NewSingleton | src/avltree/AVLNode.java:21-28 | the short constructors leave the new node linked to itself in both directions, and no other node's pointers change |
| Ring.SingletonRing | src/avltree/AVLNode.java:21-28 | a fresh node linked to itself is a ring of one |
| Ring.SpliceRing | src/avltree/AVLNode.java:30-37 | a node created between a ring member and that member's successor joins the ring at that position |
| Ring.JoinRing | src/avltree/AVLNode.java:270-271 | linking the last node of one ring to the first of another, and the second ring's last node back to the first ring's first, makes one ring of both |
| Ring.UnlinkRing | src/avltree/AVLNode.java:243-251 | linking a node's predecessor to its successor removes exactly that node from a ring of two or more |
| Ring.SplitCutsRing | src/avltree/AVLNode.java:318-319 | as written, a split whose right part is empty clears the next pointer of the left part's maximum, so the left part is no longer a ring |
| Ring.SplitRing | src/avltree/AVLNode.java:318-319 | when the maximum's pointer is set only if the right part is non-empty, a split leaves a ring on each part |
| Threading.InsertSpliceIndex | src/avltree/AVLNode.java:174-188 | the node insert creates is linked before or after the neighbour the descent ends at, which is the node at the new value's in-order position |
| Threading.SpliceLinksRing | src/avltree/AVLNode.java:175-187 | linking the new node in before or after that neighbour inserts it into the ring at that position |
| Threading.InsertRing | src/avltree/AVLNode.java:169-191 | after insert, the ring lists the nodes in the tree's new in-order sequence |
| Threading.RemoveRing | src/avltree/AVLNode.java:240-251 | after remove, the ring lists the remaining nodes in order, without the removed one |
| Threading.JoinThreaded | src/avltree/AVLNode.java:260-277 | after join, one ring runs through both trees' nodes in order |
| Threading.SplitThreaded | src/avltree/AVLNode.java:279-326 | a split with the corrected pointer update leaves each part with a ring over its own nodes in order |
| Threading.SplitRightEmptyCuts | src/avltree/AVLNode.java:318-321 | a split of a threaded tree that sends every value left cuts the left part's ring as written |
| Ring.RingWalk | src/avltree/AVLTree.java:159-162 | along an intact ring, n calls of next() from the i-th node return the values of the next n nodes in ring order |
| Ring.CutWalk | src/avltree/AVLTree.java:159-162 | on the ring as the written split leaves it, calls of next() that reach the left part's last node throw a NullPointerException |
| Ring.Walk | src/avltree/AVLTree.java:153-163 | n calls of next() from a node either yield exactly n values or fail, and the only failure is the NullPointerException of a null next or prev pointer; which values an intact ring yields is Ring.RingWalk |
| Threading.IterateThreaded | src/avltree/AVLTree.java:139-163 | on a threaded tree, size() calls of next() from the node findMin returns yield the in-order values |
| Threading.CutIterationFails | src/avltree/AVLNode.java:318-319 | as written, iterating the left part of a split whose right part is empty throws a NullPointerException before it has returned all the values |
| Threading.SplitIterates | src/avltree/AVLNode.java:318-321 | after a split, links that thread each part over its own nodes, as the corrected pointer update gives by SplitThreaded, make iterating either part yield exactly that part's values in order |
| AvlTree.Size | src/avltree/AVLTree.java:7-9 | size is the number of values held |
| AvlTree.JoinTrees | src/avltree/AVLTree.java:25-35 | the static join returns the other tree when one is null; otherwise it returns an AVL tree holding the left values followed by the right |
| AvlTree.Contains | src/avltree/AVLTree.java:90-104 | contains is false for null; on a search tree it is true exactly when the value is present |
| AvlTree.Add | src/avltree/AVLTree.java:124-129 | add always reports a change, because duplicates are kept; it adds one copy of the value and keeps the tree AVL and ordered |
| AvlTree.RemoveValue | src/avltree/AVLTree.java:106-122 | remove(null) is false and leaves the tree unchanged; otherwise remove reports a change exactly when a copy was taken away, removes one copy, and keeps the tree AVL and ordered; it builds on the corrected remove of the second finding |
| AvlTree.GetAt | src/avltree/AVLTree.java:131-137 | get returns the index-th value in ascending order; an index outside 0..size-1 is an IndexOutOfBoundsException |
| AvlTree.RetainInterval | src/avltree/AVLTree.java:37-51 | a null bound is a NullPointerException; otherwise the result is AVL and, on a search tree, holds in order exactly the values inside the interval, read around the wrap when min > max |
| AvlTree.RemoveInterval | src/avltree/AVLTree.java:61-75 | a null bound is a NullPointerException; otherwise the result is AVL and, on a search tree, holds in order exactly the values outside the interval |
| AvlTree.RetainRemoveComplement | src/avltree/AVLTree.java:37-75 | retainInterval and removeInterval with the same bounds divide the values between them: together they hold every value as often as the tree did, and a value lands in the first exactly when it is in the interval |
| AvlTree.RetainSegment | src/avltree/AVLTree.java:53-55 | a null bound is a NullPointerException; otherwise retainSegment keeps, in order and with every copy, exactly the values in the closed segment, or those outside the open gap between the bounds when min > max |
| AvlTree.RetainOpenInterval | src/avltree/AVLTree.java:57-59 | a null bound is a NullPointerException; otherwise the two-argument retainInterval keeps, in order and with every copy, exactly the values strictly inside the interval |
| AvlTree.RemoveSegment | src/avltree/AVLTree.java:77-79 | a null bound is a NullPointerException; otherwise removeSegment keeps, in order and with every copy, exactly the values outside the closed segment |
| AvlTree.RemoveOpenInterval | src/avltree/AVLTree.java:81-83 | a null bound is a NullPointerException; otherwise the two-argument removeInterval keeps, in order and with every copy, exactly the values outside the open interval |
| AvlTree.Iterator | src/avltree/AVLTree.java:139-146 | a new iterator starts at the minimum of the ring, with no moves made and the current size recorded |
| AvlTree.HasNext | src/avltree/AVLTree.java:148-151 | on a valid cursor, hasNext holds only while a value is left to read at the cursor's position, and fails only once startingSize moves have been made |
| AvlTree.Next | src/avltree/AVLTree.java:153-163 | next returns the ring's next value and counts one move; once startingSize moves have been made, it is a NoSuchElementException |
| AvlTree.CursorRemove | src/avltree/AVLTree.java:165-179 | remove without a preceding next is an IllegalStateException; otherwise it deletes one copy of the last value returned and clears the flag |
| AvlTree.Drain | src/avltree/AVLTree.java:148-163 | on the cursor's snapshot of the in-order sequence, a for-each loop over the iterator receives exactly startingSize - moveCount values |
| AvlTree.DrainRing | src/avltree/AVLTree.java:148-163 | calling next while hasNext holds yields the ring from the cursor's position up to the starting size |
| AvlTree.IterationOrder | src/avltree/AVLTree.java:139-163 | iterating a tree yields its in-order sequence, which is ascending in a search tree; on a tree threaded by an intact ring, the walk along the next links from the minimum yields the same sequence |
| AvlTree.NextOnEmpty | test/avltree/AVLTreeTest.java:141-147 | next on an iterator over the empty tree throws NoSuchElementException |
| AvlTree.RemoveNeedsNext | src/avltree/AVLTree.java:165-169 | the iterator's remove before any next, and a second remove after one next, throw IllegalStateException |
| RangeExamples.SplitAt22 | test/avltree/AVLNodeTest.java:21-40 | splitting the tree holding 0..1024 at 22, with 22 going left, gives balanced parts of 23 and 1002 values |
| RangeExamples.RetainSegment22To513 | test/avltree/AVLTreeTest.java:199-219 | retainSegment(22, 513) on 0..1024 leaves the 492 values 22..513 in order, in a balanced tree |
| RangeExamples.RetainSegment513To22 | test/avltree/AVLTreeTest.java:221-248 | retainSegment(513, 22) leaves 0..22 followed by 513..1024, that is 1025 - 490 values, in a balanced tree |
| RangeExamples.RemoveOpen513To22 | test/avltree/AVLTreeTest.java:298-317 | the two-argument removeInterval(513, 22) leaves the 492 values 22..513 |
| RangeExamples.RemoveOpen22To513 | test/avltree/AVLTreeTest.java:320-348 | the two-argument removeInterval(22, 513) leaves 0..22 followed by 513..1024 |

## Left out

- Parent pointers and `replaceSon` are not modelled, except for the null-parent case that `AvlNode.RemoveAsWritten` takes as a parameter. The Java code does read them. `balanceBranch` (AVLNode.java:328-342) walks up through `node.parent` and re-hangs each rebalanced subtree with `replaceSon(node.parent, ...)`. The model replaces that upward walk with recursion down the same branch (`SplitJoin.BalanceBranch`, called from `SplitJoin.Join` and `SplitJoin.Split`). This matches the code because `split` (AVLNode.java:292-310) sets the parent pointers along the cut chain and a null parent at its top, and `join` sets a null parent on the new root (AVLNode.java:274), before the walk starts. `remove` (AVLNode.java:244 and 250) also calls `replaceSon(p.parent, ...)`, and that parent may be stale after earlier rotations. The caller then overwrites the same child link with the returned subtree (`p.left = remove(...)`, `p.right = remove(...)`). So the stale write has no lasting effect, except for the NullPointerException that AvlNode.RemoveAsWritten models.
- AvlNode.RemoveAsWritten: whether the deleted node's parent pointer is null is an input rather than derived from a heap, because the model has no parent pointers.
- Java generics, `compareTo` and the `ClassCastException` branches of `contains` and `remove` are left out. Values are integers with their usual order.
- `int` overflow of the cached height and count fields is not modelled. Both are unbounded naturals.
- Object identity and the heap are not modelled. Trees are values, and ring nodes are natural-number identities linked by maps.
- The three `AVLTree` constructors and `isEmpty`/`addAll` are not modelled. They come from `AbstractCollection` or only set `head`.
- AvlTree.Next: the cursor reads the values from the in-order sequence of the tree it was created on, not from the link maps. It models the counting and the NoSuchElementException. The link walk of `next`, and its NullPointerException on a ring cut by the written split, are modelled by Ring.Walk, Ring.CutWalk and Threading.CutIterationFails.
- AvlTree.DrainRing: like Next, it reads the cursor's in-order sequence, so it holds on a ring cut by the written split, where the code throws. The link-level statement is in AvlTree.IterationOrder and Threading.IterateThreaded, which assume an intact ring.
- AvlTree.Drain: it counts the values of the cursor's snapshot. On a ring cut by the written split (AVLNode.java:318-319), the code's for-each throws a NullPointerException before receiving that many values; that failure is shown by Threading.CutIterationFails.
- AvlTree.CursorRemove: it removes by value, as the code does. With duplicates this may remove another node holding the same value. The `next == null` branch, which empties the tree, is only reachable through the cut ring and is left out. It builds on the corrected AvlNode.Remove, so the NullPointerException at AVLNode.java:88-89 that `next(); remove()` on a new one-value tree throws is shown only by AvlNode.RemoveAsWritten.
- AvlTree.RemoveValue: it builds on the corrected AvlNode.Remove. The NullPointerException at AVLNode.java:88-89 that `add(x); remove(x)` on a new tree throws is shown only by AvlNode.RemoveAsWritten and AvlNode.AddThenRemoveFails. Whether a parent pointer is null depends on the heap, which the collection layer does not model.
- Split, Join and BalanceBranch require AVL inputs. This is the collection's invariant, and the height bounds that make the recursion terminate depend on it.
- Running time (O(log n) per operation) is not stated.

## Findings

| source | as written | input that shows it | evidently intended | confidence | as-written member | corrected member |
|---|---|---|---|---|---|---|
| src/avltree/AVLNode.java:318-319 | `setNext(max, right)` runs even when the right part is empty, so the maximum of the left part gets a null `next` and its ring is cut | a tree holding only 1, then `retainSegment(1, 1)`; the second split sends everything left, and the for-each loop that follows dereferences the null `next` | set the maximum's `next` only when the right part is non-empty, so the left part stays a closed ring | not executed | Threading.CutIterationFails | Threading.SplitThreaded |
| src/avltree/AVLNode.java:88-89 | `replaceSon` with a null parent writes `repl.parent` even when the replacement is null | on a new tree, `add(x)` then `remove(x)`: the root has no children and no parent | skip the write when the replacement is null, so that removing the last value empties the tree | not executed | AvlNode.RemoveAsWritten | AvlNode.Remove |

=== FILE: avl_node.dfy ===
/**
 * The node engine of the AVL tree: nodes caching their height and the number
 * of nodes below them, duplicates allowed, with rotations, rebalancing,
 * insertion, minimum removal, search, removal and rank lookup.
 *
 * Every Java routine that returns the new root of a subtree becomes a pure
 * function returning the new subtree; the caller's "p.left = insert(p.left, x)"
 * becomes a record update with that result.  Parent pointers are not part of
 * the model, and the prev/next threading lives in module Ring.
 */
module AvlNode {
  import opened Results
  import opened Seqs

  const MinBalanceFactor: int := -1
  const MaxBalanceFactor: int := 1

  /**
   * A subtree.  `height` and `childrenCount` are the cached fields of the
   * Java node; nothing forces them to be right (see Exact).
   */
  datatype Tree =
    | Leaf
    | Node(left: Tree, value: int, right: Tree, height: nat, childrenCount: nat)

  function Max(a: int, b: int): (m: int) { if a < b then b else a }

  // ---------------------------------------------------------------------
  // Cached measures (getHeight, getNodeCount, getBalanceFactor, isBalanced)
  // ---------------------------------------------------------------------

  function Height(t: Tree): nat {
    if t.Leaf? then 0 else t.height
  }

  function NodeCount(t: Tree): nat {
    if t.Leaf? then 0 else t.childrenCount + 1
  }

  function BalanceFactor(t: Tree): int {
    if t.Leaf? then 0 else Height(t.right) - Height(t.left)
  }

  predicate IsBalanced(t: Tree) {
    MinBalanceFactor <= BalanceFactor(t) <= MaxBalanceFactor
  }

  // ---------------------------------------------------------------------
  // Reference definitions
  // ---------------------------------------------------------------------

  /** The in-order sequence of values; the prev/next ring visits exactly this. */
  function Elems(t: Tree): seq<int> {
    if t.Leaf? then [] else Elems(t.left) + [t.value] + Elems(t.right)
  }

  /** The true height of a subtree, computed without the cache. */
  function Depth(t: Tree): nat {
    if t.Leaf? then 0 else 1 + Max(Depth(t.left), Depth(t.right))
  }

  /** Every cached height and count is the exact aggregate of its children. */
  ghost predicate Exact(t: Tree) {
    t.Node? ==>
      && Exact(t.left) && Exact(t.right)
      && t.height == 1 + Max(Height(t.left), Height(t.right))
      && t.childrenCount == NodeCount(t.left) + NodeCount(t.right)
  }

  /** Every node has balance factor in [MinBalanceFactor, MaxBalanceFactor]. */
  ghost predicate Balanced(t: Tree) {
    t.Node? ==> IsBalanced(t) && Balanced(t.left) && Balanced(t.right)
  }

  /** The structural invariant kept by every public operation. */
  ghost predicate Avl(t: Tree) {
    Exact(t) && Balanced(t)
  }

  /** Search-tree order: left values <= node value <= right values. */
  ghost predicate Ordered(t: Tree) {
    t.Node? ==>
      && Ordered(t.left) && Ordered(t.right)
      && (forall x :: x in Elems(t.left) ==> x <= t.value)
      && (forall x :: x in Elems(t.right) ==> t.value <= x)
  }

  /** The order constraints of an ordered node, instantiated at one value. */
  lemma OrderedBounds(t: Tree, x: int)
    ensures t.Node? && Ordered(t) && x in Elems(t.left) ==> x <= t.value
    ensures t.Node? && Ordered(t) && x in Elems(t.right) ==> t.value <= x
  {
  }

  /** With exact caches, the cached height and count are the true ones. */
  lemma {:induction false} ExactMeasures(t: Tree)
    requires Exact(t)
    ensures Height(t) == Depth(t)
    ensures NodeCount(t) == |Elems(t)|
  {
    if t.Node? {
      ExactMeasures(t.left);
      ExactMeasures(t.right);
    }
  }

  /**
   * With exact caches, the balance factor is the difference of the true
   * subtree depths, and a node is balanced exactly when those depths differ
   * by at most one; every node of an AVL tree passes the check.
   */
  lemma BalanceFactorMeasures(t: Tree)
    requires Exact(t)
    ensures t.Leaf? ==> BalanceFactor(t) == 0 && IsBalanced(t)
    ensures t.Node? ==> BalanceFactor(t) == Depth(t.right) - Depth(t.left)
    ensures t.Node? ==> (IsBalanced(t) <==> -1 <= Depth(t.right) - Depth(t.left) <= 1)
    ensures Balanced(t) ==> IsBalanced(t)
  {
    if t.Node? {
      ExactMeasures(t.left);
      ExactMeasures(t.right);
    }
  }

  /** The search-tree order is exactly sortedness of the in-order sequence. */
  lemma {:induction false} OrderedIffSorted(t: Tree)
    ensures Ordered(t) <==> Sorted(Elems(t))
  {
    if t.Node? {
      OrderedIffSorted(t.left);
      OrderedIffSorted(t.right);
      if Ordered(t) {
        SortedConcat(Elems(t.left), t.value, Elems(t.right));
      }
      if Sorted(Elems(t)) {
        SortedParts(Elems(t.left), t.value, Elems(t.right));
      }
    }
  }

  // ---------------------------------------------------------------------
  // update, rotations, balance
  // ---------------------------------------------------------------------

  /** Recompute the cached fields of the root from its children. */
  function Update(t: Tree): (r: Tree)
    ensures Elems(r) == Elems(t)
    ensures t.Node? && Exact(t.left) && Exact(t.right) ==> Exact(r)
    ensures t.Node? ==> r.Node? && NodeCount(r) == NodeCount(t.left) + NodeCount(t.right) + 1
    ensures t.Node? ==> Height(r) == 1 + Max(Height(t.left), Height(t.right))
  {
    match t
    case Leaf => Leaf
    case Node(l, v, rt, _, _) =>
      Node(l, v, rt, Max(Height(l), Height(rt)) + 1, NodeCount(l) + NodeCount(rt))
  }

  /** A node over the given children with freshly computed cached fields. */
  function Make(l: Tree, v: int, r: Tree): Tree {
    Update(Node(l, v, r, 0, 0))
  }

  function RotateRight(p: Tree): (r: Tree)
    requires p.Node? && p.left.Node?
    ensures r.Node? && r.right.Node?
    ensures Elems(r) == Elems(p)
    ensures r.value == p.left.value && r.right.value == p.value
    ensures r.left == p.left.left && r.right.left == p.left.right && r.right.right == p.right
    ensures Exact(p.left.left) && Exact(p.left.right) && Exact(p.right) ==> Exact(r)
  {
    var q := p.left;
    var p' := Make(q.right, p.value, p.right);
    Make(q.left, q.value, p')
  }

  function RotateLeft(q: Tree): (r: Tree)
    requires q.Node? && q.right.Node?
    ensures r.Node? && r.left.Node?
    ensures Elems(r) == Elems(q)
    ensures r.value == q.right.value && r.left.value == q.value
    ensures r.right == q.right.right && r.left.left == q.left && r.left.right == q.right.left
    ensures Exact(q.left) && Exact(q.right.left) && Exact(q.right.right) ==> Exact(r)
  {
    var p := q.right;
    var q' := Make(q.left, q.value, p.left);
    Make(q', p.value, p.right)
  }

  /**
   * Rebalance the root: a single or a double rotation chosen by the balance
   * factor of the heavy child, or nothing when the root is balanced.
   */
  function Balance(t: Tree): (r: Tree)
    ensures Elems(r) == Elems(t)
    ensures t.Node? <==> r.Node?
  {
    if t.Leaf? then Leaf
    else
      var p := Update(t);
      if BalanceFactor(p) > MaxBalanceFactor then
        var p' := if BalanceFactor(p.right) < 0 then p.(right := RotateRight(p.right)) else p;
        RotateLeft(p')
      else if BalanceFactor(p) < MinBalanceFactor then
        var p' := if BalanceFactor(p.left) > 0 then p.(left := RotateLeft(p.left)) else p;
        RotateRight(p')
      else
        p
  }

  /** What Balance does to a right-heavy node with AVL children. */
  lemma PushDownLeft(t: Tree)
    requires t.Node? && Avl(t.left) && Avl(t.right)
    requires Height(t.right) - Height(t.left) >= 2
    ensures var q := Balance(t); var hr := Height(t.right);
      && q.Node? && q.left.Node?
      && q.left.left == t.left && q.left.value == t.value
      && Avl(q.left.right) && Avl(q.right)
      && Exact(q)
      && hr - 3 <= Height(q.left.right) <= hr - 1
      && Height(q.right) == hr - 1
      && (Height(q.left.right) == hr - 3 ==> BalanceFactor(q.right) == 0)
      && (BalanceFactor(t.right) == 0 ==> Height(q.left.right) == hr - 1)
      && (BalanceFactor(t.right) != 0 ==> Height(q.left.right) <= hr - 2)
  {
    var p := Update(t);
    var R := t.right;
    assert BalanceFactor(p) > MaxBalanceFactor;
    if BalanceFactor(R) < 0 {
      var Rl := R.left;
      assert Rl.Node? && Avl(Rl) && Avl(R.right);
      assert Height(Rl) == Height(R.right) + 1;
      assert Avl(Rl.left) && Avl(Rl.right);
      var Y := Make(Rl.right, R.value, R.right);
      assert Exact(Y) && IsBalanced(Y);
      assert Avl(Y) && Height(Y) == Height(Rl);
      assert Balance(t) == Make(Make(t.left, t.value, Rl.left), Rl.value, Y);
    } else {
      assert Balance(t) == Make(Make(t.left, t.value, R.left), R.value, R.right);
    }
  }

  /** What Balance does to a left-heavy node with AVL children. */
  lemma PushDownRight(t: Tree)
    requires t.Node? && Avl(t.left) && Avl(t.right)
    requires Height(t.left) - Height(t.right) >= 2
    ensures var q := Balance(t); var hl := Height(t.left);
      && q.Node? && q.right.Node?
      && q.right.right == t.right && q.right.value == t.value
      && Avl(q.right.left) && Avl(q.left)
      && Exact(q)
      && hl - 3 <= Height(q.right.left) <= hl - 1
      && Height(q.left) == hl - 1
      && (Height(q.right.left) == hl - 3 ==> BalanceFactor(q.left) == 0)
      && (BalanceFactor(t.left) == 0 ==> Height(q.right.left) == hl - 1)
      && (BalanceFactor(t.left) != 0 ==> Height(q.right.left) <= hl - 2)
  {
    var p := Update(t);
    var L := t.left;
    assert BalanceFactor(p) < MinBalanceFactor;
    if BalanceFactor(L) > 0 {
      var Lr := L.right;
      assert Lr.Node? && Avl(Lr) && Avl(L.left);
      assert Height(Lr) == Height(L.left) + 1;
      assert Avl(Lr.left) && Avl(Lr.right);
      var Y := Make(L.left, L.value, Lr.left);
      assert Exact(Y) && IsBalanced(Y);
      assert Avl(Y) && Height(Y) == Height(Lr);
      assert Balance(t) == Make(Y, Lr.value, Make(Lr.right, t.value, t.right));
    } else {
      assert Balance(t) == Make(L.left, L.value, Make(L.right, t.value, t.right));
    }
  }

  /**
   * Given AVL children whose heights differ by at most two, Balance returns
   * an AVL tree whose height is the taller child's height or one more, and
   * exactly one more when no rotation was needed.
   */
  lemma BalanceRestoresAvl(t: Tree)
    requires t.Node? && Avl(t.left) && Avl(t.right)
    requires -2 <= Height(t.right) - Height(t.left) <= 2
    ensures Avl(Balance(t))
    ensures var m := Max(Height(t.left), Height(t.right));
      m <= Height(Balance(t)) <= m + 1
    ensures -1 <= Height(t.right) - Height(t.left) <= 1 ==>
      Height(Balance(t)) == 1 + Max(Height(t.left), Height(t.right))
  {
    if Height(t.right) - Height(t.left) == 2 {
      PushDownLeft(t);
    } else if Height(t.left) - Height(t.right) == 2 {
      PushDownRight(t);
    }
  }

  // ---------------------------------------------------------------------
  // insert
  // ---------------------------------------------------------------------

  /**
   * Insert a value: smaller values go left, equal and larger go right, and
   * every node on the way back up is rebalanced.
   */
  function Insert(t: Tree, x: int): (r: Tree)
    ensures r.Node?
    ensures multiset(Elems(r)) == multiset(Elems(t)) + multiset{x}
  {
    match t
    case Leaf => Node(Leaf, x, Leaf, 1, 0)
    case Node(l, v, rt, _, _) =>
      if x < v then Balance(t.(left := Insert(l, x)))
      else Balance(t.(right := Insert(rt, x)))
  }

  /** The in-order position at which Insert places its value. */
  function InsertIndex(t: Tree, x: int): nat {
    match t
    case Leaf => 0
    case Node(l, v, rt, _, _) =>
      if x < v then InsertIndex(l, x) else |Elems(l)| + 1 + InsertIndex(rt, x)
  }

  /** One level of Insert, seen through the in-order sequence. */
  lemma InsertStep(t: Tree, x: int)
    requires t.Node?
    ensures x < t.value ==> Elems(Insert(t, x)) == Elems(Insert(t.left, x)) + [t.value] + Elems(t.right)
    ensures x >= t.value ==> Elems(Insert(t, x)) == Elems(t.left) + [t.value] + Elems(Insert(t.right, x))
  {
    if x < t.value {
      assert Insert(t, x) == Balance(t.(left := Insert(t.left, x)));
    } else {
      assert Insert(t, x) == Balance(t.(right := Insert(t.right, x)));
    }
  }

  /** Insert puts the value at in-order position InsertIndex. */
  lemma {:induction false} InsertPlacement(t: Tree, x: int)
    ensures InsertIndex(t, x) <= |Elems(t)|
    ensures var s, k := Elems(t), InsertIndex(t, x);
      Elems(Insert(t, x)) == s[..k] + [x] + s[k..]
  {
    match t
    case Leaf =>
    case Node(l, v, rt, _, _) =>
      InsertStep(t, x);
      if x < v {
        InsertPlacement(l, x);
        SpliceLeft(Elems(l), v, Elems(rt), InsertIndex(l, x), x);
      } else {
        InsertPlacement(rt, x);
        SpliceRight(Elems(l), v, Elems(rt), InsertIndex(rt, x), x);
      }
  }

  /**
   * In an ordered tree InsertIndex comes after every element <= x and
   * before every element > x: ties go right.
   */
  lemma {:induction false} InsertIndexBounds(t: Tree, x: int)
    requires Ordered(t)
    ensures InsertIndex(t, x) <= |Elems(t)|
    ensures forall i :: 0 <= i < InsertIndex(t, x) ==> Elems(t)[i] <= x
    ensures forall i :: InsertIndex(t, x) <= i < |Elems(t)| ==> x < Elems(t)[i]
  {
    match t
    case Leaf =>
    case Node(l, v, rt, _, _) =>
      var s := Elems(t);
      var sl, sr := Elems(l), Elems(rt);
      assert forall i :: 0 <= i < |sl| ==> s[i] == sl[i];
      assert forall i :: 0 <= i < |sr| ==> s[|sl| + 1 + i] == sr[i];
      if x < v {
        InsertIndexBounds(l, x);
        forall i | |sl| < i < |s| ensures x < s[i] {
          assert s[i] == sr[i - |sl| - 1];
          assert sr[i - |sl| - 1] in sr;
        }
      } else {
        InsertIndexBounds(rt, x);
        forall i | 0 <= i < |sl| ensures s[i] <= x {
          assert sl[i] in sl;
        }
      }
  }

  /** Insert keeps the search-tree order. */
  lemma InsertOrdered(t: Tree, x: int)
    requires Ordered(t)
    ensures Ordered(Insert(t, x))
  {
    InsertPlacement(t, x);
    InsertIndexBounds(t, x);
    OrderedIffSorted(t);
    SortedSplice(Elems(t), InsertIndex(t, x), x);
    OrderedIffSorted(Insert(t, x));
  }

  /** Insert keeps the AVL invariant and grows the height by at most one. */
  lemma {:induction false} InsertAvl(t: Tree, x: int)
    requires Avl(t)
    ensures Avl(Insert(t, x))
    ensures Height(t) <= Height(Insert(t, x)) <= Height(t) + 1
  {
    match t
    case Leaf =>
    case Node(l, v, rt, _, _) =>
      assert Avl(l) && Avl(rt) && -1 <= Height(rt) - Height(l) <= 1;
      if x < v {
        InsertAvl(l, x);
        var t' := t.(left := Insert(l, x));
        BalanceRestoresAvl(t');
        assert Insert(t, x) == Balance(t');
      } else {
        InsertAvl(rt, x);
        var t' := t.(right := Insert(rt, x));
        BalanceRestoresAvl(t');
        assert Insert(t, x) == Balance(t');
      }
  }

  /** Insert never fails: the count grows by exactly one. */
  lemma InsertCount(t: Tree, x: int)
    requires Avl(t)
    ensures NodeCount(Insert(t, x)) == NodeCount(t) + 1
  {
    InsertAvl(t, x);
    InsertPlacement(t, x);
    ExactMeasures(t);
    ExactMeasures(Insert(t, x));
  }

  // ---------------------------------------------------------------------
  // findMin, findMax, removeMin
  // ---------------------------------------------------------------------

  /** The leftmost node, holding the first in-order value. */
  function FindMin(t: Tree): (r: Tree)
    ensures r.Node? <==> t.Node?
    ensures t.Node? ==> r.left.Leaf? && r.value == Elems(t)[0]
  {
    if t.Leaf? || t.left.Leaf? then t else FindMin(t.left)
  }

  /** The rightmost node, holding the last in-order value. */
  function FindMax(t: Tree): (r: Tree)
    ensures r.Node? <==> t.Node?
    ensures t.Node? ==> r.right.Leaf? && r.value == Elems(t)[|Elems(t)| - 1]
  {
    if t.Leaf? || t.right.Leaf? then t else FindMax(t.right)
  }

  /** Unhook the leftmost node and rebalance on the way back up. */
  function RemoveMin(t: Tree): (r: Tree)
    ensures t.Leaf? ==> r.Leaf?
    ensures t.Node? ==> Elems(r) == Elems(t)[1..]
  {
    if t.Leaf? then Leaf
    else if t.left.Leaf? then t.right
    else Balance(t.(left := RemoveMin(t.left)))
  }

  /** RemoveMin keeps the AVL invariant and lowers the height by at most one. */
  lemma {:induction false} RemoveMinAvl(t: Tree)
    requires Avl(t) && t.Node?
    ensures Avl(RemoveMin(t))
    ensures Height(t) - 1 <= Height(RemoveMin(t)) <= Height(t)
  {
    if t.left.Node? {
      RemoveMinAvl(t.left);
      BalanceRestoresAvl(t.(left := RemoveMin(t.left)));
    }
  }

  // ---------------------------------------------------------------------
  // find, remove
  // ---------------------------------------------------------------------

  /**
   * Search by comparison; returns the node found (Leaf for null).  A node
   * returned holds the value, and in an ordered tree one is returned
   * exactly when the value occurs.
   */
  function Find(t: Tree, x: int): (r: Tree)
    ensures r.Node? ==> r.value == x && x in Elems(t)
    ensures Ordered(t) && x in Elems(t) ==> r.Node?
  {
    if t.Leaf? then Leaf
    else if x < t.value then
      OrderedBounds(t, x);
      Find(t.left, x)
    else if x > t.value then
      OrderedBounds(t, x);
      Find(t.right, x)
    else t
  }

  /**
   * Remove one node holding x.  A node without a right child is replaced by
   * its left child; otherwise the minimum of the right subtree takes its place.
   */
  function Remove(t: Tree, x: int): (r: Tree)
    ensures x !in Elems(t) ==> Elems(r) == Elems(t)
  {
    match t
    case Leaf => Leaf
    case Node(l, v, rt, _, _) =>
      if x < v then Balance(t.(left := Remove(l, x)))
      else if x > v then Balance(t.(right := Remove(rt, x)))
      else if rt.Leaf? then l
      else Balance(Node(l, FindMin(rt).value, RemoveMin(rt), 0, 0))
  }

  /** The in-order position of the node Remove deletes, if any. */
  function RemoveIndex(t: Tree, x: int): Option<nat> {
    match t
    case Leaf => None
    case Node(l, v, rt, _, _) =>
      if x < v then RemoveIndex(l, x)
      else if x > v then Shift(RemoveIndex(rt, x), |Elems(l)| + 1)
      else Some(|Elems(l)|)
  }

  function Shift(o: Option<nat>, n: nat): Option<nat> {
    match o
    case None => None
    case Some(j) => Some(n + j)
  }

  /**
   * s' is s with the element at position o deleted, that element being x;
   * when o is None, s' is s.
   */
  ghost predicate Deleted(s: seq<int>, s': seq<int>, x: int, o: Option<nat>) {
    match o
    case None => s' == s
    case Some(i) => i < |s| && s[i] == x && s' == s[..i] + s[i + 1..]
  }

  lemma DeletedLeft(a: seq<int>, a': seq<int>, v: int, b: seq<int>, x: int, o: Option<nat>)
    requires Deleted(a, a', x, o)
    ensures Deleted(a + [v] + b, a' + [v] + b, x, o)
  {
    if o.Some? {
      DeleteLeft(a, v, b, o.value);
    }
  }

  lemma DeletedRight(a: seq<int>, v: int, b: seq<int>, b': seq<int>, x: int, o: Option<nat>)
    requires Deleted(b, b', x, o)
    ensures Deleted(a + [v] + b, a + [v] + b', x, Shift(o, |a| + 1))
  {
    if o.Some? {
      DeleteRight(a, v, b, o.value);
    }
  }

  lemma DeletedMiddle(a: seq<int>, v: int, b: seq<int>)
    ensures Deleted(a + [v] + b, a + b, v, Some(|a|))
  {
    var s, i := a + [v] + b, |a|;
    assert s[..i] == a;
    assert s[i + 1..] == b;
  }

  /** One level of Remove, seen through the in-order sequence. */
  lemma RemoveStep(t: Tree, x: int)
    requires t.Node?
    ensures x < t.value ==> Elems(Remove(t, x)) == Elems(Remove(t.left, x)) + [t.value] + Elems(t.right)
    ensures x > t.value ==> Elems(Remove(t, x)) == Elems(t.left) + [t.value] + Elems(Remove(t.right, x))
    ensures x == t.value ==> Elems(Remove(t, x)) == Elems(t.left) + Elems(t.right)
  {
    if x < t.value {
      var t' := t.(left := Remove(t.left, x));
      assert Remove(t, x) == Balance(t');
      assert Elems(t') == Elems(Remove(t.left, x)) + [t.value] + Elems(t.right);
    } else if x > t.value {
      var t' := t.(right := Remove(t.right, x));
      assert Remove(t, x) == Balance(t');
      assert Elems(t') == Elems(t.left) + [t.value] + Elems(Remove(t.right, x));
    } else if t.right.Node? {
      RemoveFound(t);
    }
  }

  /** Removing at a node with a right child puts the right subtree's minimum in its place. */
  lemma RemoveFound(t: Tree)
    requires t.Node? && t.right.Node?
    ensures Elems(Remove(t, t.value)) == Elems(t.left) + Elems(t.right)
  {
    var rt := t.right;
    var t' := Node(t.left, FindMin(rt).value, RemoveMin(rt), 0, 0);
    RemoveFoundShape(t);
    MinSplitsOff(rt);
    ConcatShift(Elems(t.left), FindMin(rt).value, Elems(RemoveMin(rt)));
  }

  lemma ConcatShift(a: seq<int>, v: int, b: seq<int>)
    ensures a + [v] + b == a + ([v] + b)
  {
  }

  lemma RemoveFoundShape(t: Tree)
    requires t.Node? && t.right.Node?
    ensures Remove(t, t.value) == Balance(Node(t.left, FindMin(t.right).value, RemoveMin(t.right), 0, 0))
  {
  }

  /** A non-empty subtree is its minimum followed by what RemoveMin leaves. */
  lemma MinSplitsOff(t: Tree)
    requires t.Node?
    ensures Elems(t) == [FindMin(t).value] + Elems(RemoveMin(t))
  {
  }

  /**
   * Remove deletes exactly the element at RemoveIndex, which holds x, and
   * changes nothing when there is no such index.
   */
  lemma {:induction false} RemovePlacement(t: Tree, x: int)
    ensures Deleted(Elems(t), Elems(Remove(t, x)), x, RemoveIndex(t, x))
  {
    match t
    case Leaf =>
    case Node(l, v, rt, _, _) =>
      RemoveStep(t, x);
      if x < v {
        RemovePlacement(l, x);
        DeletedLeft(Elems(l), Elems(Remove(l, x)), v, Elems(rt), x, RemoveIndex(l, x));
      } else if x > v {
        RemovePlacement(rt, x);
        DeletedRight(Elems(l), v, Elems(rt), Elems(Remove(rt, x)), x, RemoveIndex(rt, x));
      } else {
        DeletedMiddle(Elems(l), v, Elems(rt));
      }
  }

  /** In an ordered tree the descent finds a node holding x exactly when x occurs. */
  lemma {:induction false} RemoveIndexFinds(t: Tree, x: int)
    requires Ordered(t)
    ensures RemoveIndex(t, x).None? <==> x !in Elems(t)
  {
    match t
    case Leaf =>
    case Node(l, v, rt, _, _) =>
      OrderedBounds(t, x);
      if x < v {
        RemoveIndexFinds(l, x);
      } else if x > v {
        RemoveIndexFinds(rt, x);
      }
  }

  /** In an ordered tree Remove deletes one occurrence of x, and nothing when x is absent. */
  lemma RemoveMultiset(t: Tree, x: int)
    requires Ordered(t)
    ensures multiset(Elems(Remove(t, x))) == multiset(Elems(t)) - multiset{x}
  {
    RemovePlacement(t, x);
    RemoveIndexFinds(t, x);
    DeletedMultiset(Elems(t), Elems(Remove(t, x)), x, RemoveIndex(t, x));
  }

  lemma DeletedMultiset(s: seq<int>, s': seq<int>, x: int, o: Option<nat>)
    requires Deleted(s, s', x, o) && (o.None? <==> x !in s)
    ensures multiset(s') == multiset(s) - multiset{x}
  {
    if o.Some? {
      var i := o.value;
      assert s == s[..i] + [x] + s[i + 1..];
    }
  }

  lemma DeletedSorted(s: seq<int>, s': seq<int>, x: int, o: Option<nat>)
    requires Deleted(s, s', x, o) && Sorted(s)
    ensures Sorted(s')
  {
    if o.Some? {
      SortedDelete(s, o.value);
    }
  }

  /** Remove keeps the AVL invariant and lowers the height by at most one. */
  lemma {:induction false} RemoveAvl(t: Tree, x: int)
    requires Avl(t)
    ensures Avl(Remove(t, x))
    ensures Height(t) - 1 <= Height(Remove(t, x)) <= Height(t)
  {
    match t
    case Leaf =>
    case Node(l, v, rt, _, _) =>
      if x < v {
        RemoveAvl(l, x);
        BalanceRestoresAvl(t.(left := Remove(l, x)));
      } else if x > v {
        RemoveAvl(rt, x);
        BalanceRestoresAvl(t.(right := Remove(rt, x)));
      } else if rt.Node? {
        RemoveMinAvl(rt);
        BalanceRestoresAvl(Node(l, FindMin(rt).value, RemoveMin(rt), 0, 0));
      }
  }

  /** Remove keeps the search-tree order. */
  lemma RemoveOrdered(t: Tree, x: int)
    requires Ordered(t)
    ensures Ordered(Remove(t, x))
  {
    RemovePlacement(t, x);
    OrderedIffSorted(t);
    DeletedSorted(Elems(t), Elems(Remove(t, x)), x, RemoveIndex(t, x));
    OrderedIffSorted(Remove(t, x));
  }

  /**
   * Remove as written, including the parent-pointer step replaceSon takes
   * at the node it deletes: when that node has no right child its left
   * child q replaces it, and with a null parent replaceSon sets q.parent
   * to null, failing when q is null too.  Parent pointers are not modelled
   * otherwise, so whether the deleted node's parent is null is a parameter.
   */
  function RemoveAsWritten(t: Tree, x: int, parentNull: bool): (r: Result<Tree>)
    ensures r.Success? ==> r.value == Remove(t, x)
    ensures r.Failure? ==> r.error == NullPointer
    ensures r.Failure? <==> parentNull && Find(t, x).Node? && Find(t, x).left.Leaf? && Find(t, x).right.Leaf?
  {
    match t
    case Leaf => Success(Leaf)
    case Node(l, v, rt, _, _) =>
      if x < v then
        match RemoveAsWritten(l, x, parentNull)
        case Success(l') => Success(Balance(t.(left := l')))
        case Failure(e) => Failure(e)
      else if x > v then
        match RemoveAsWritten(rt, x, parentNull)
        case Success(rt') => Success(Balance(t.(right := rt')))
        case Failure(e) => Failure(e)
      else if rt.Leaf? then
        if parentNull && l.Leaf? then Failure(NullPointer) else Success(l)
      else Success(Balance(Node(l, FindMin(rt).value, RemoveMin(rt), 0, 0)))
  }

  /**
   * The smallest failing case: add(x) to an empty tree creates a root with
   * a null parent, and remove(x) then fails instead of emptying the tree.
   */
  lemma AddThenRemoveFails(x: int)
    ensures Remove(Insert(Leaf, x), x) == Leaf
    ensures RemoveAsWritten(Insert(Leaf, x), x, true) == Failure(NullPointer)
  {
  }

  // ---------------------------------------------------------------------
  // get (rank lookup)
  // ---------------------------------------------------------------------

  /** The value of rank `index` (0-based) in the in-order sequence. */
  function Get(t: Tree, index: int): (r: Result<int>)
    requires Exact(t)
    ensures r.Success? <==> 0 <= index < |Elems(t)|
    ensures r.Success? ==> r.value == Elems(t)[index]
    ensures r.Failure? ==> r.error == IndexOutOfBounds
  {
    ExactMeasures(t);
    if index < 0 || index >= NodeCount(t) then Failure(IndexOutOfBounds)
    else
      ExactMeasures(t.left);
      if index == NodeCount(t.left) then Success(t.value)
      else if index < NodeCount(t.left) then Get(t.left, index)
      else Get(t.right, index - NodeCount(t.left) - 1)
  }
}

=== FILE: avl_tree.dfy ===
/**
 * The collection layer: a tree handle (the root, Leaf for an empty tree)
 * with size, add, remove, contains and get, static join, and interval
 * retention and removal built from two splits and a join.
 *
 * Every member here takes the root as a parameter and returns the new root
 * where Java assigns `head`.  Arguments Java may receive as null are
 * Option values.  Every tree handed to the collection satisfies Avl, the
 * invariant every operation keeps.
 */
module AvlTree {
  import opened Results
  import opened Seqs
  import opened AvlNode
  import opened SplitJoin
  import Ring
  import Threading

  /** The number of values, read from the root's cached count. */
  function Size(t: Tree): (n: nat)
    requires Exact(t)
    ensures n == |Elems(t)|
  {
    ExactMeasures(t);
    NodeCount(t)
  }

  /** Static join: a null side yields the other side as it is. */
  function JoinTrees(a: Option<Tree>, b: Option<Tree>): (r: Option<Tree>)
    requires a.Some? ==> Avl(a.value)
    requires b.Some? ==> Avl(b.value)
    ensures a.None? ==> r == b
    ensures a.Some? && b.None? ==> r == a
    ensures a.Some? && b.Some? ==> r.Some? && Avl(r.value) && Elems(r.value) == Elems(a.value) + Elems(b.value)
  {
    if a.None? then b
    else if b.None? then a
    else Some(Join(a.value, b.value))
  }

  /** Whether the value occurs; null is never contained. */
  function Contains(t: Tree, o: Option<int>): (b: bool)
    ensures o.None? ==> !b
    ensures o.Some? && Ordered(t) ==> (b <==> o.value in Elems(t))
  {
    o.Some? && Find(t, o.value).Node?
  }

  /**
   * Add a value, returning the new root and whether the size changed,
   * which it always does.
   */
  function Add(t: Tree, x: int): (r: (Tree, bool))
    requires Avl(t)
    ensures r.1
    ensures Avl(r.0) && multiset(Elems(r.0)) == multiset(Elems(t)) + multiset{x}
    ensures Ordered(t) ==> Ordered(r.0)
  {
    var t' := Insert(t, x);
    InsertCount(t, x);
    InsertAvl(t, x);
    InsertKeepsOrder(t, x);
    (t', NodeCount(t) != NodeCount(t'))
  }

  lemma InsertKeepsOrder(t: Tree, x: int)
    ensures Ordered(t) ==> Ordered(Insert(t, x))
  {
    if Ordered(t) {
      InsertOrdered(t, x);
    }
  }

  /**
   * Remove one occurrence of a value, returning the new root and whether the
   * size changed.  Null changes nothing.
   */
  function RemoveValue(t: Tree, o: Option<int>): (r: (Tree, bool))
    requires Avl(t)
    ensures o.None? ==> r == (t, false)
    ensures o.Some? ==> Avl(r.0) && (r.1 <==> RemoveIndex(t, o.value).Some?)
    ensures o.Some? && Ordered(t) ==>
      && (r.1 <==> o.value in Elems(t))
      && Ordered(r.0)
      && multiset(Elems(r.0)) == multiset(Elems(t)) - multiset{o.value}
  {
    if o.None? then (t, false)
    else
      var x := o.value;
      var t' := AvlNode.Remove(t, x);
      RemoveAvl(t, x);
      RemovePlacement(t, x);
      ExactMeasures(t);
      ExactMeasures(t');
      RemoveKeepsOrder(t, x);
      (t', NodeCount(t) != NodeCount(t'))
  }

  lemma RemoveKeepsOrder(t: Tree, x: int)
    ensures Ordered(t) ==>
      && (RemoveIndex(t, x).Some? <==> x in Elems(t))
      && Ordered(AvlNode.Remove(t, x))
      && multiset(Elems(AvlNode.Remove(t, x))) == multiset(Elems(t)) - multiset{x}
  {
    if Ordered(t) {
      RemoveIndexFinds(t, x);
      RemoveOrdered(t, x);
      RemoveMultiset(t, x);
    }
  }

  /** The value of rank `index`; an index outside [0, size) is refused. */
  function GetAt(t: Tree, index: int): (r: Result<int>)
    requires Exact(t)
    ensures r.Success? <==> 0 <= index < |Elems(t)|
    ensures r.Success? ==> r.value == Elems(t)[index]
    ensures r.Failure? ==> r.error == IndexOutOfBounds
  {
    if index < 0 || index >= Size(t) then Failure(IndexOutOfBounds)
    else Get(t, index)
  }

  // ---------------------------------------------------------------------
  // retainInterval, removeInterval
  // ---------------------------------------------------------------------

  /** x clears the lower bound lo: strictly when open. */
  predicate AboveLow(x: int, lo: int, open: bool) {
    if open then lo < x else lo <= x
  }

  /** x clears the upper bound hi: strictly when open. */
  predicate BelowHigh(x: int, hi: int, open: bool) {
    if open then x < hi else x <= hi
  }

  /**
   * The values retainInterval(min, max, minOpen, maxOpen) keeps: those
   * between the bounds when min <= max, and otherwise the wrap-around
   * interval, everything from min upwards together with everything up to max.
   */
  predicate Retains(x: int, min: int, max: int, minOpen: bool, maxOpen: bool) {
    if min <= max then AboveLow(x, min, minOpen) && BelowHigh(x, max, maxOpen)
    else AboveLow(x, min, minOpen) || BelowHigh(x, max, maxOpen)
  }

  /** The subsequence of s whose values are retained (keep) or not retained (!keep). */
  function Select(s: seq<int>, min: int, max: int, minOpen: bool, maxOpen: bool, keep: bool): (r: seq<int>)
    ensures |r| <= |s|
  {
    if |s| == 0 then []
    else
      (if Retains(s[0], min, max, minOpen, maxOpen) == keep then [s[0]] else [])
      + Select(s[1..], min, max, minOpen, maxOpen, keep)
  }

  lemma {:induction false} SelectConcat(a: seq<int>, b: seq<int>, min: int, max: int, minOpen: bool, maxOpen: bool, keep: bool)
    ensures Select(a + b, min, max, minOpen, maxOpen, keep)
      == Select(a, min, max, minOpen, maxOpen, keep) + Select(b, min, max, minOpen, maxOpen, keep)
  {
    if |a| > 0 {
      assert (a + b)[1..] == a[1..] + b;
      SelectConcat(a[1..], b, min, max, minOpen, maxOpen, keep);
    } else {
      assert a + b == b;
    }
  }

  /** Selecting from a sequence all of whose values agree with keep takes it all; none, nothing. */
  lemma {:induction false} SelectUniform(s: seq<int>, min: int, max: int, minOpen: bool, maxOpen: bool, keep: bool, all: bool)
    requires forall x :: x in s ==> (Retains(x, min, max, minOpen, maxOpen) == keep) == all
    ensures Select(s, min, max, minOpen, maxOpen, keep) == if all then s else []
  {
    if |s| > 0 {
      assert s[0] in s;
      assert forall x :: x in s[1..] ==> x in s;
      SelectUniform(s[1..], min, max, minOpen, maxOpen, keep, all);
      if all {
        assert s == [s[0]] + s[1..];
      }
    }
  }

  /**
   * Swapping the bounds and negating both openness flags turns the values
   * retained into the values not retained.
   */
  lemma SwapComplements(x: int, min: int, max: int, minOpen: bool, maxOpen: bool)
    requires min > max
    ensures Retains(x, min, max, minOpen, maxOpen) == !Retains(x, max, min, !maxOpen, !minOpen)
  {
  }

  lemma {:induction false} SelectSwapped(s: seq<int>, min: int, max: int, minOpen: bool, maxOpen: bool, keep: bool)
    requires min > max
    ensures Select(s, min, max, minOpen, maxOpen, keep) == Select(s, max, min, !maxOpen, !minOpen, !keep)
  {
    if |s| > 0 {
      SwapComplements(s[0], min, max, minOpen, maxOpen);
      SelectSwapped(s[1..], min, max, minOpen, maxOpen, keep);
    }
  }

  /**
   * The three pieces of the two splits, for min <= max: the values below
   * the interval, the values inside it, and the values above it.
   */
  lemma Pieces(t: Tree, min: int, max: int, minOpen: bool, maxOpen: bool)
    requires Avl(t) && Ordered(t) && min <= max
    ensures var p1 := Split(t, min, minOpen); var p2 := Split(p1.1, max, !maxOpen);
      && Elems(t) == Elems(p1.0) + Elems(p2.0) + Elems(p2.1)
      && Ordered(p1.0) && Ordered(p2.0) && Ordered(p2.1)
      && (forall x :: x in Elems(p1.0) ==> !Retains(x, min, max, minOpen, maxOpen))
      && (forall x :: x in Elems(p2.0) ==> Retains(x, min, max, minOpen, maxOpen))
      && (forall x :: x in Elems(p2.1) ==> !Retains(x, min, max, minOpen, maxOpen))
  {
    var p1 := Split(t, min, minOpen);
    LowerSplit(t, min, max, minOpen, maxOpen);
    UpperSplit(p1.1, min, max, minOpen, maxOpen);
    var p2 := Split(p1.1, max, !maxOpen);
    Assoc(Elems(p1.0), Elems(p2.0), Elems(p2.1));
  }

  lemma Assoc(a: seq<int>, b: seq<int>, c: seq<int>)
    ensures a + (b + c) == a + b + c
  {
  }

  /** The split at min: below it nothing is retained, above it every value clears min. */
  lemma LowerSplit(t: Tree, min: int, max: int, minOpen: bool, maxOpen: bool)
    requires Avl(t) && Ordered(t) && min <= max
    ensures var p := Split(t, min, minOpen);
      && Elems(t) == Elems(p.0) + Elems(p.1)
      && Avl(p.1) && Ordered(p.0) && Ordered(p.1)
      && (forall x :: x in Elems(p.0) ==> !Retains(x, min, max, minOpen, maxOpen))
      && (forall x :: x in Elems(p.1) ==> AboveLow(x, min, minOpen))
  {
    SplitPartition(t, min, minOpen);
    SplitOrdered(t, min, minOpen);
  }

  /** The split at max of values that all clear min: inside, then outside. */
  lemma UpperSplit(u: Tree, min: int, max: int, minOpen: bool, maxOpen: bool)
    requires Avl(u) && Ordered(u) && min <= max
    requires forall x :: x in Elems(u) ==> AboveLow(x, min, minOpen)
    ensures var p := Split(u, max, !maxOpen);
      && Elems(u) == Elems(p.0) + Elems(p.1)
      && Ordered(p.0) && Ordered(p.1)
      && (forall x :: x in Elems(p.0) ==> Retains(x, min, max, minOpen, maxOpen))
      && (forall x :: x in Elems(p.1) ==> !Retains(x, min, max, minOpen, maxOpen))
  {
    var p := Split(u, max, !maxOpen);
    SplitPartition(u, max, !maxOpen);
    SplitOrdered(u, max, !maxOpen);
    assert forall x :: x in Elems(p.0) ==> x in Elems(u);
  }

  /**
   * Keep only the values in the interval (see Retains); a null bound is
   * refused before anything changes.  With min > max the call becomes
   * removeInterval with the bounds swapped and the openness flags negated.
   */
  function RetainInterval(t: Tree, min: Option<int>, max: Option<int>, minOpen: bool, maxOpen: bool): (r: Result<Tree>)
    requires Avl(t)
    ensures r.Failure? <==> min.None? || max.None?
    ensures r.Failure? ==> r.error == NullPointer
    ensures r.Success? ==> Avl(r.value)
    ensures r.Success? && Ordered(t) ==>
      && Ordered(r.value)
      && Elems(r.value) == Select(Elems(t), min.value, max.value, minOpen, maxOpen, true)
    decreases if min.Some? && max.Some? && min.value > max.value then 1 else 0
  {
    if min.None? || max.None? then Failure(NullPointer)
    else if min.value > max.value then
      var r := RemoveInterval(t, max, min, !maxOpen, !minOpen);
      SelectSwappedIf(t, min.value, max.value, minOpen, maxOpen, true);
      r
    else
      var p1 := Split(t, min.value, minOpen);
      var p2 := Split(p1.1, max.value, !maxOpen);
      RetainContent(t, min.value, max.value, minOpen, maxOpen);
      Success(p2.0)
  }

  /**
   * Remove the values in the interval (see Retains), as the join of what lies
   * below and what lies above it; a null bound is refused.  With min > max
   * the call becomes retainInterval with the bounds swapped and the openness
   * flags negated.
   */
  function RemoveInterval(t: Tree, min: Option<int>, max: Option<int>, minOpen: bool, maxOpen: bool): (r: Result<Tree>)
    requires Avl(t)
    ensures r.Failure? <==> min.None? || max.None?
    ensures r.Failure? ==> r.error == NullPointer
    ensures r.Success? ==> Avl(r.value)
    ensures r.Success? && Ordered(t) ==>
      && Ordered(r.value)
      && Elems(r.value) == Select(Elems(t), min.value, max.value, minOpen, maxOpen, false)
    decreases if min.Some? && max.Some? && min.value > max.value then 1 else 0
  {
    if min.None? || max.None? then Failure(NullPointer)
    else if min.value > max.value then
      var r := RetainInterval(t, max, min, !maxOpen, !minOpen);
      SelectSwappedIf(t, min.value, max.value, minOpen, maxOpen, false);
      r
    else
      var p1 := Split(t, min.value, minOpen);
      var p2 := Split(p1.1, max.value, !maxOpen);
      RemoveContent(t, min.value, max.value, minOpen, maxOpen);
      Success(Join(p1.0, p2.1))
  }

  lemma SelectSwappedIf(t: Tree, min: int, max: int, minOpen: bool, maxOpen: bool, keep: bool)
    requires min > max
    ensures Select(Elems(t), min, max, minOpen, maxOpen, keep) == Select(Elems(t), max, min, !maxOpen, !minOpen, !keep)
  {
    SelectSwapped(Elems(t), min, max, minOpen, maxOpen, keep);
  }

  /**
   * A sequence in three runs, the outer two on one side of the retained set
   * and the middle run on the other: selecting gives the middle or the ends.
   */
  lemma SelectThree(a: seq<int>, b: seq<int>, c: seq<int>, min: int, max: int, minOpen: bool, maxOpen: bool, keep: bool, mid: bool)
    requires forall x :: x in a ==> Retains(x, min, max, minOpen, maxOpen) != mid
    requires forall x :: x in b ==> Retains(x, min, max, minOpen, maxOpen) == mid
    requires forall x :: x in c ==> Retains(x, min, max, minOpen, maxOpen) != mid
    ensures Select(a + b + c, min, max, minOpen, maxOpen, keep) == if keep == mid then b else a + c
  {
    SelectTwo(a, b, min, max, minOpen, maxOpen, keep, mid);
    SelectConcat(a + b, c, min, max, minOpen, maxOpen, keep);
    SelectUniform(c, min, max, minOpen, maxOpen, keep, keep != mid);
    if keep == mid {
      assert b + [] == b;
    }
  }

  lemma SelectTwo(a: seq<int>, b: seq<int>, min: int, max: int, minOpen: bool, maxOpen: bool, keep: bool, mid: bool)
    requires forall x :: x in a ==> Retains(x, min, max, minOpen, maxOpen) != mid
    requires forall x :: x in b ==> Retains(x, min, max, minOpen, maxOpen) == mid
    ensures Select(a + b, min, max, minOpen, maxOpen, keep) == if keep == mid then b else a
  {
    SelectConcat(a, b, min, max, minOpen, maxOpen, keep);
    SelectUniform(a, min, max, minOpen, maxOpen, keep, keep != mid);
    SelectUniform(b, min, max, minOpen, maxOpen, keep, keep == mid);
  }

  /** Select keeps exactly the values of s on the requested side, each as often as it occurs. */
  lemma {:induction false} SelectMembers(s: seq<int>, min: int, max: int, minOpen: bool, maxOpen: bool)
    ensures multiset(Select(s, min, max, minOpen, maxOpen, true)) + multiset(Select(s, min, max, minOpen, maxOpen, false))
      == multiset(s)
    ensures forall x :: x in Select(s, min, max, minOpen, maxOpen, true) <==> x in s && Retains(x, min, max, minOpen, maxOpen)
    ensures forall x :: x in Select(s, min, max, minOpen, maxOpen, false) <==> x in s && !Retains(x, min, max, minOpen, maxOpen)
  {
    if |s| > 0 {
      SelectMembers(s[1..], min, max, minOpen, maxOpen);
      assert s == [s[0]] + s[1..];
    }
  }

  lemma RetainContent(t: Tree, min: int, max: int, minOpen: bool, maxOpen: bool)
    requires Avl(t) && min <= max
    ensures var p2 := Split(Split(t, min, minOpen).1, max, !maxOpen);
      Ordered(t) ==> Ordered(p2.0) && Elems(p2.0) == Select(Elems(t), min, max, minOpen, maxOpen, true)
  {
    if Ordered(t) {
      var p1 := Split(t, min, minOpen);
      var p2 := Split(p1.1, max, !maxOpen);
      Pieces(t, min, max, minOpen, maxOpen);
      SelectThree(Elems(p1.0), Elems(p2.0), Elems(p2.1), min, max, minOpen, maxOpen, true, true);
    }
  }

  lemma RemoveContent(t: Tree, min: int, max: int, minOpen: bool, maxOpen: bool)
    requires Avl(t) && min <= max
    ensures var p1 := Split(t, min, minOpen); var p2 := Split(p1.1, max, !maxOpen);
      Ordered(t) ==> Ordered(Join(p1.0, p2.1)) && Elems(Join(p1.0, p2.1)) == Select(Elems(t), min, max, minOpen, maxOpen, false)
  {
    if Ordered(t) {
      var p1 := Split(t, min, minOpen);
      var p2 := Split(p1.1, max, !maxOpen);
      Pieces(t, min, max, minOpen, maxOpen);
      SelectThree(Elems(p1.0), Elems(p2.0), Elems(p2.1), min, max, minOpen, maxOpen, false, true);
      OrderedIffSorted(t);
      OrderedIffSorted(Join(p1.0, p2.1));
      SortedDrop(Elems(p1.0), Elems(p2.0), Elems(p2.1));
    }
  }

  /**
   * retainInterval and removeInterval with the same arguments divide the
   * values between them: one keeps exactly the values the other drops.
   */
  lemma RetainRemoveComplement(t: Tree, min: int, max: int, minOpen: bool, maxOpen: bool)
    requires Avl(t) && Ordered(t)
    ensures var kept := RetainInterval(t, Some(min), Some(max), minOpen, maxOpen);
      var rest := RemoveInterval(t, Some(min), Some(max), minOpen, maxOpen);
      && kept.Success? && rest.Success?
      && multiset(Elems(kept.value)) + multiset(Elems(rest.value)) == multiset(Elems(t))
      && (forall x :: x in Elems(kept.value) <==> x in Elems(t) && Retains(x, min, max, minOpen, maxOpen))
      && (forall x :: x in Elems(rest.value) <==> x in Elems(t) && !Retains(x, min, max, minOpen, maxOpen))
  {
    SelectMembers(Elems(t), min, max, minOpen, maxOpen);
  }

  /** x lies in the closed segment from lo to hi, read around the wrap when lo > hi. */
  predicate InSegment(x: int, lo: int, hi: int) {
    if lo <= hi then lo <= x <= hi else lo <= x || x <= hi
  }

  /** x lies strictly inside the interval from lo to hi, read around the wrap when lo > hi. */
  predicate InOpenInterval(x: int, lo: int, hi: int) {
    if lo <= hi then lo < x < hi else lo < x || x < hi
  }

  /** retainSegment: keeps the values of the closed segment. */
  function RetainSegment(t: Tree, min: Option<int>, max: Option<int>): (r: Result<Tree>)
    requires Avl(t)
    ensures r.Failure? <==> min.None? || max.None?
    ensures r.Success? ==> Avl(r.value)
    ensures r.Success? && Ordered(t) ==>
      && Ordered(r.value)
      && Elems(r.value) == Select(Elems(t), min.value, max.value, false, false, true)
      && (forall x :: x in Elems(r.value) <==> x in Elems(t) && InSegment(x, min.value, max.value))
  {
    var r := RetainInterval(t, min, max, false, false);
    if min.Some? && max.Some? then SelectMembers(Elems(t), min.value, max.value, false, false); r else r
  }

  /** The two-argument retainInterval: keeps the values strictly inside the interval. */
  function RetainOpenInterval(t: Tree, min: Option<int>, max: Option<int>): (r: Result<Tree>)
    requires Avl(t)
    ensures r.Failure? <==> min.None? || max.None?
    ensures r.Success? ==> Avl(r.value)
    ensures r.Success? && Ordered(t) ==>
      && Ordered(r.value)
      && Elems(r.value) == Select(Elems(t), min.value, max.value, true, true, true)
      && (forall x :: x in Elems(r.value) <==> x in Elems(t) && InOpenInterval(x, min.value, max.value))
  {
    var r := RetainInterval(t, min, max, true, true);
    if min.Some? && max.Some? then SelectMembers(Elems(t), min.value, max.value, true, true); r else r
  }

  /** removeSegment: drops the values of the closed segment. */
  function RemoveSegment(t: Tree, min: Option<int>, max: Option<int>): (r: Result<Tree>)
    requires Avl(t)
    ensures r.Failure? <==> min.None? || max.None?
    ensures r.Success? ==> Avl(r.value)
    ensures r.Success? && Ordered(t) ==>
      && Ordered(r.value)
      && Elems(r.value) == Select(Elems(t), min.value, max.value, false, false, false)
      && (forall x :: x in Elems(r.value) <==> x in Elems(t) && !InSegment(x, min.value, max.value))
  {
    var r := RemoveInterval(t, min, max, false, false);
    if min.Some? && max.Some? then SelectMembers(Elems(t), min.value, max.value, false, false); r else r
  }

  /** The two-argument removeInterval: drops the values strictly inside the interval. */
  function RemoveOpenInterval(t: Tree, min: Option<int>, max: Option<int>): (r: Result<Tree>)
    requires Avl(t)
    ensures r.Failure? <==> min.None? || max.None?
    ensures r.Success? ==> Avl(r.value)
    ensures r.Success? && Ordered(t) ==>
      && Ordered(r.value)
      && Elems(r.value) == Select(Elems(t), min.value, max.value, true, true, false)
      && (forall x :: x in Elems(r.value) <==> x in Elems(t) && !InOpenInterval(x, min.value, max.value))
  {
    var r := RemoveInterval(t, min, max, true, true);
    if min.Some? && max.Some? then SelectMembers(Elems(t), min.value, max.value, true, true); r else r
  }

  // ---------------------------------------------------------------------
  // The iterator
  // ---------------------------------------------------------------------

  /**
   * An iterator: the values of the ring read from the minimum onwards, the
   * number of advances made, the size when it was created, and whether next
   * has been called since the last remove.
   */
  datatype Cursor = Cursor(ring: seq<int>, moveCount: nat, startingSize: nat, moved: bool)

  /** What every cursor satisfies: the ring covers the starting size, and a move precedes `moved`. */
  ghost predicate ValidCursor(c: Cursor) {
    && c.moveCount <= c.startingSize <= |c.ring|
    && (c.moved ==> 0 < c.moveCount)
  }

  /** A new iterator starts at the minimum with no moves made. */
  function Iterator(t: Tree): (c: Cursor)
    requires Exact(t)
    ensures ValidCursor(c) && c.ring == Elems(t) && c.startingSize == |Elems(t)|
    ensures c.moveCount == 0 && !c.moved
  {
    Cursor(Elems(t), 0, Size(t), false)
  }

  /** Whether next may be called: then a value is left at the cursor's position. */
  function HasNext(c: Cursor): (b: bool)
    ensures ValidCursor(c) && b ==> c.moveCount < |c.ring|
    ensures ValidCursor(c) && !b ==> c.moveCount == c.startingSize
  {
    c.moveCount < c.startingSize
  }

  /**
   * Advance and return the value passed over; refused once startingSize
   * advances have been made.
   */
  function Next(c: Cursor): (r: Result<(Cursor, int)>)
    requires ValidCursor(c)
    ensures r.Failure? <==> !HasNext(c)
    ensures r.Failure? ==> r.error == NoSuchElement
    ensures r.Success? ==> var (c', x) := r.value;
      && ValidCursor(c') && c'.moved && c'.moveCount == c.moveCount + 1
      && c'.ring == c.ring && c'.startingSize == c.startingSize
      && x == c.ring[c.moveCount]
  {
    if !HasNext(c) then Failure(NoSuchElement)
    else Success((c.(moveCount := c.moveCount + 1, moved := true), c.ring[c.moveCount]))
  }

  /**
   * Remove, from the tree, the value the last next returned (by value);
   * refused unless next was called since the last remove.
   */
  function CursorRemove(c: Cursor, t: Tree): (r: Result<(Cursor, Tree)>)
    requires ValidCursor(c) && Avl(t)
    ensures r.Failure? <==> !c.moved
    ensures r.Failure? ==> r.error == IllegalState
    ensures r.Success? ==> var (c', t') := r.value;
      && ValidCursor(c') && !c'.moved && c'.moveCount == c.moveCount
      && Avl(t') && (Ordered(t) ==> multiset(Elems(t')) == multiset(Elems(t)) - multiset{c.ring[c.moveCount - 1]})
  {
    if !c.moved then Failure(IllegalState)
    else Success((c.(moved := false), RemoveValue(t, Some(c.ring[c.moveCount - 1])).0))
  }

  /** The values a for-each loop receives: next, for as long as hasNext holds. */
  function Drain(c: Cursor): (d: seq<int>)
    requires ValidCursor(c)
    ensures |d| == c.startingSize - c.moveCount
    decreases c.startingSize - c.moveCount
  {
    match Next(c)
    case Failure(_) => []
    case Success((c', x)) => [x] + Drain(c')
  }

  /** A cursor yields the ring from its position up to the starting size. */
  lemma {:induction false} DrainRing(c: Cursor)
    requires ValidCursor(c)
    ensures Drain(c) == c.ring[c.moveCount..c.startingSize]
    decreases c.startingSize - c.moveCount
  {
    if HasNext(c) {
      var c' := Next(c).value.0;
      DrainRing(c');
      assert c.ring[c.moveCount..c.startingSize] == [c.ring[c.moveCount]] + c.ring[c.moveCount + 1..c.startingSize];
    }
  }

  /**
   * Iterating a tree yields its values in order, ascending in a search tree:
   * both the cursor's count of size() calls of next() and, when the tree is
   * threaded by an intact ring, the walk along the next links from the
   * minimum that those calls perform.
   */
  lemma IterationOrder(t: Tree, k: Ring.Links, val: nat -> int, order: seq<nat>)
    requires Exact(t)
    ensures Drain(Iterator(t)) == Elems(t)
    ensures Ordered(t) ==> Sorted(Drain(Iterator(t)))
    ensures Threading.Threaded(k, order, t) && Threading.Valued(val, order, t) && 0 < Size(t) ==>
      Ring.Walk(k, val, order[0], Size(t)) == Success(Elems(t))
  {
    DrainRing(Iterator(t));
    assert Elems(t)[0..|Elems(t)|] == Elems(t);
    OrderedIffSorted(t);
    if Threading.Threaded(k, order, t) && Threading.Valued(val, order, t) && 0 < Size(t) {
      Threading.IterateThreaded(k, val, order, t);
    }
  }

  /** next on an empty tree is refused at once. */
  lemma NextOnEmpty()
    ensures Next(Iterator(Leaf)) == Failure(NoSuchElement)
  {
  }

  /** remove before any next, or twice after one next, is refused. */
  lemma RemoveNeedsNext(t: Tree)
    requires Avl(t) && 0 < |Elems(t)|
    ensures CursorRemove(Iterator(t), t) == Failure(IllegalState)
    ensures var (c, _) := Next(Iterator(t)).value; var (c', t') := CursorRemove(c, t).value;
      CursorRemove(c', t') == Failure(IllegalState)
  {
  }
}

=== FILE: range_examples.dfy ===
/**
 * The concrete scenarios of the repository's tests: a tree holding 0..1024
 * (1025 values, however it was built), split and cut by intervals with
 * the bounds 22 and 513.
 */
module RangeExamples {
  import opened Results
  import opened Seqs
  import opened AvlNode
  import opened SplitJoin
  import opened AvlTree

  /** A tree over 0..1024 is a search tree. */
  lemma RangeOrdered(t: Tree)
    requires Elems(t) == Range(0, 1025)
    ensures Ordered(t)
  {
    assert Sorted(Range(0, 1025));
    OrderedIffSorted(t);
  }

  /** Splitting 0..1024 at 22, keeping 22 on the left, gives 23 and 1002 values, both balanced. */
  lemma SplitAt22(t: Tree)
    requires Avl(t) && Elems(t) == Range(0, 1025)
    ensures var parts := Split(t, 22, true);
      && Avl(parts.0) && Avl(parts.1)
      && Elems(parts.0) == Range(0, 23) && Elems(parts.1) == Range(23, 1025)
      && |Elems(parts.0)| == 23 && |Elems(parts.1)| == 1002
  {
    var parts := Split(t, 22, true);
    RangeOrdered(t);
    SplitPartition(t, 22, true);
    RangePartition(Elems(parts.0), Elems(parts.1), 0, 1025, 23);
  }

  /** 0..1024 in three runs, cut before b and before c. */
  lemma Runs(a: int, b: int, c: int, d: int)
    requires a <= b <= c <= d
    ensures Range(a, d) == Range(a, b) + Range(b, c) + Range(c, d)
    ensures forall x :: x in Range(a, b) <==> a <= x < b
    ensures forall x :: x in Range(b, c) <==> b <= x < c
    ensures forall x :: x in Range(c, d) <==> c <= x < d
  {
    RangeConcat(a, b, c);
    RangeConcat(a, c, d);
    RangeMembers(a, b);
    RangeMembers(b, c);
    RangeMembers(c, d);
  }

  /** retainSegment(22, 513) keeps the 492 values 22..513. */
  lemma RetainSegment22To513(t: Tree)
    requires Avl(t) && Elems(t) == Range(0, 1025)
    ensures var r := RetainSegment(t, Some(22), Some(513));
      r.Success? && Avl(r.value) && Elems(r.value) == Range(22, 514) && |Elems(r.value)| == 492
  {
    RangeOrdered(t);
    Runs(0, 22, 514, 1025);
    SelectThree(Range(0, 22), Range(22, 514), Range(514, 1025), 22, 513, false, false, true, true);
  }

  /**
   * retainSegment(513, 22) wraps around: it keeps 0..22 and 513..1024,
   * removing the 490 values in between.
   */
  lemma RetainSegment513To22(t: Tree)
    requires Avl(t) && Elems(t) == Range(0, 1025)
    ensures var r := RetainSegment(t, Some(513), Some(22));
      && r.Success? && Avl(r.value)
      && Elems(r.value) == Range(0, 23) + Range(513, 1025)
      && |Elems(r.value)| == 1025 - 490
  {
    RangeOrdered(t);
    Runs(0, 23, 513, 1025);
    SelectThree(Range(0, 23), Range(23, 513), Range(513, 1025), 513, 22, false, false, true, false);
  }

  /** The open removeInterval(22, 513) drops the 490 values 23..512. */
  lemma RemoveOpen22To513(t: Tree)
    requires Avl(t) && Elems(t) == Range(0, 1025)
    ensures var r := RemoveOpenInterval(t, Some(22), Some(513));
      && r.Success? && Avl(r.value)
      && Elems(r.value) == Range(0, 23) + Range(513, 1025)
      && |Elems(r.value)| == 1025 - 490
  {
    RangeOrdered(t);
    Runs(0, 23, 513, 1025);
    SelectThree(Range(0, 23), Range(23, 513), Range(513, 1025), 22, 513, true, true, false, true);
  }

  /**
   * The open removeInterval(513, 22) becomes retainInterval(22, 513) with
   * both bounds closed: it keeps the 492 values 22..513.
   */
  lemma RemoveOpen513To22(t: Tree)
    requires Avl(t) && Elems(t) == Range(0, 1025)
    ensures var r := RemoveOpenInterval(t, Some(513), Some(22));
      r.Success? && Avl(r.value) && Elems(r.value) == Range(22, 514) && |Elems(r.value)| == 492
  {
    RangeOrdered(t);
    Runs(0, 22, 514, 1025);
    SelectThree(Range(0, 22), Range(22, 514), Range(514, 1025), 513, 22, true, true, false, false);
  }
}

=== FILE: results.dfy ===
/** Failure-carrying results for the Java exceptions the collection raises. */
module Results {

  /** A possibly-null reference or argument. */
  datatype Option<+T> = None | Some(value: T)

  /** The unchecked exceptions thrown by the tree and its cursor. */
  datatype Exception =
    | IndexOutOfBounds   // rank outside [0, size)
    | NoSuchElement      // cursor advanced past its end
    | IllegalState       // cursor removal without a preceding advance
    | NullPointer        // null bound, or a dereference of a missing link

  /** Either the value an operation returns or the exception it throws. */
  datatype Result<+T> = Success(value: T) | Failure(error: Exception)
}

=== FILE: ring.dfy ===
/**
 * The prev/next threading of the nodes: every node of a tree sits on a
 * circular doubly-linked list in in-order order.
 *
 * Nodes are named by ids.  `next` and `prev` map an id to the id its field
 * points at; an id missing from a map has that field null.  The link
 * setters mirror Java's setNext and setPrev, null arguments included.
 */
module Ring {
  import opened Results

  datatype Links = Links(next: map<nat, nat>, prev: map<nat, nat>)

  /** node.next = nxt, and nxt.prev = node when nxt is not null; nothing when node is null. */
  function SetNext(k: Links, node: Option<nat>, nxt: Option<nat>): (r: Links)
    ensures node.Some? && nxt.Some? ==>
      r.next == k.next[node.value := nxt.value] && r.prev == k.prev[nxt.value := node.value]
    ensures node.Some? && nxt.None? ==>
      node.value !in r.next && r.prev == k.prev &&
      forall i :: i != node.value ==> (i in r.next <==> i in k.next) && (i in k.next ==> r.next[i] == k.next[i])
    ensures node.None? ==> r == k
  {
    match node
    case None => k
    case Some(n) =>
      match nxt
      case None => Links(k.next - {n}, k.prev)
      case Some(m) => Links(k.next[n := m], k.prev[m := n])
  }

  /** node.prev = prv, and prv.next = node when prv is not null; nothing when node is null. */
  function SetPrev(k: Links, node: Option<nat>, prv: Option<nat>): (r: Links)
    ensures node.Some? && prv.Some? ==>
      r.prev == k.prev[node.value := prv.value] && r.next == k.next[prv.value := node.value]
    ensures node.Some? && prv.None? ==>
      node.value !in r.prev && r.next == k.next &&
      forall i :: i != node.value ==> (i in r.prev <==> i in k.prev) && (i in k.prev ==> r.prev[i] == k.prev[i])
    ensures node.None? ==> r == k
  {
    match node
    case None => k
    case Some(n) =>
      match prv
      case None => Links(k.next, k.prev - {n})
      case Some(m) => Links(k.next[m := n], k.prev[n := m])
  }

  /** A fresh node: both its fields start out null. */
  function Fresh(k: Links, c: nat): (r: Links)
    ensures c !in r.next && c !in r.prev
  {
    Links(k.next - {c}, k.prev - {c})
  }

  /**
   * The five-argument constructor: a fresh node c whose prev is set to prv
   * and whose next is set to nxt, each through the setters.
   */
  function NewNode(k: Links, c: nat, prv: Option<nat>, nxt: Option<nat>): (r: Links)
    ensures prv.Some? && nxt.Some? && prv.value != c && nxt.value != c ==>
      Linked(r, prv.value, c) && Linked(r, c, nxt.value)
    ensures prv.None? && nxt != Some(c) ==> c !in r.prev
    ensures nxt.None? ==> c !in r.next
    ensures forall i :: i != c && prv != Some(i) ==>
      (i in r.next <==> i in k.next) && (i in k.next ==> r.next[i] == k.next[i])
    ensures forall i :: i != c && nxt != Some(i) ==>
      (i in r.prev <==> i in k.prev) && (i in k.prev ==> r.prev[i] == k.prev[i])
  {
    SetNext(SetPrev(Fresh(k, c), Some(c), prv), Some(c), nxt)
  }

  /** The one-argument constructor: prev and next null, then setPrev(this, this). */
  function NewSingleton(k: Links, c: nat): (r: Links)
    ensures Linked(r, c, c)
    ensures forall i :: i != c ==> (i in r.next <==> i in k.next) && (i in k.next ==> r.next[i] == k.next[i])
    ensures forall i :: i != c ==> (i in r.prev <==> i in k.prev) && (i in k.prev ==> r.prev[i] == k.prev[i])
  {
    SetPrev(NewNode(k, c, None, None), Some(c), Some(c))
  }

  function Succ(i: nat, n: nat): nat {
    if i + 1 >= n then 0 else i + 1
  }

  function Pred(i: nat, n: nat): nat {
    if i == 0 then (if n == 0 then 0 else n - 1) else i - 1
  }

  ghost predicate Distinct(order: seq<nat>) {
    forall i, j :: 0 <= i < j < |order| ==> order[i] != order[j]
  }

  /** a.next is b and b.prev is a. */
  ghost predicate Linked(k: Links, a: nat, b: nat) {
    a in k.next && k.next[a] == b && b in k.prev && k.prev[b] == a
  }

  /**
   * The links thread the ids of `order` into one cycle: each id is linked to
   * the following one, and the last to the first.
   */
  ghost predicate RingOf(k: Links, order: seq<nat>) {
    && Distinct(order)
    && forall i {:trigger Linked(k, order[i], order[Succ(i, |order|)])} ::
         0 <= i < |order| ==> Linked(k, order[i], order[Succ(i, |order|)])
  }

  /** One link of a ring. */
  lemma RingLink(k: Links, order: seq<nat>, i: nat)
    requires RingOf(k, order) && i < |order|
    ensures Linked(k, order[i], order[Succ(i, |order|)])
  {
  }

  /** A node made by the one-argument constructor is a ring by itself. */
  lemma SingletonRing(k: Links, c: nat)
    ensures RingOf(NewSingleton(k, c), [c])
  {
    assert Linked(NewSingleton(k, c), [c][0], [c][Succ(0, 1)]);
  }

  /**
   * A fresh node constructed with prev = a and next = b, where a and b are
   * neighbours on a ring, is spliced into the ring between them.  `pos` is
   * the position the new node takes; a is the id before it and b the id
   * after it, circularly.
   */
  lemma SpliceRing(k: Links, order: seq<nat>, pos: nat, c: nat)
    requires RingOf(k, order) && 0 < |order| && pos <= |order| && c !in order
    ensures var n := |order|;
      var a := order[if pos == 0 then n - 1 else pos - 1];
      var b := order[if pos == n then 0 else pos];
      RingOf(NewNode(k, c, Some(a), Some(b)), order[..pos] + [c] + order[pos..])
  {
    var n := |order|;
    var a := order[if pos == 0 then n - 1 else pos - 1];
    var b := order[if pos == n then 0 else pos];
    var k' := NewNode(k, c, Some(a), Some(b));
    var o := order[..pos] + [c] + order[pos..];
    forall i, j | 0 <= i < j < |o| ensures o[i] != o[j] {
      SpliceIndex(order, pos, c, i);
      SpliceIndex(order, pos, c, j);
    }
    forall i | 0 <= i < |o| ensures Linked(k', o[i], o[Succ(i, |o|)]) {
      SpliceLink(k, order, pos, c, i);
    }
  }

  /** Where each position of order[..pos] + [c] + order[pos..] comes from. */
  lemma SpliceIndex(order: seq<nat>, pos: nat, c: nat, i: nat)
    requires pos <= |order| && i <= |order|
    ensures var o := order[..pos] + [c] + order[pos..];
      && |o| == |order| + 1
      && (i < pos ==> o[i] == order[i])
      && (i == pos ==> o[i] == c)
      && (i > pos ==> o[i] == order[i - 1])
  {
  }

  lemma SpliceLink(k: Links, order: seq<nat>, pos: nat, c: nat, i: nat)
    requires RingOf(k, order) && 0 < |order| && pos <= |order| && c !in order && i <= |order|
    ensures var n := |order|;
      var a := order[if pos == 0 then n - 1 else pos - 1];
      var b := order[if pos == n then 0 else pos];
      var o := order[..pos] + [c] + order[pos..];
      Linked(NewNode(k, c, Some(a), Some(b)), o[i], o[Succ(i, n + 1)])
  {
    var n := |order|;
    var ia := if pos == 0 then n - 1 else pos - 1;
    var ib := if pos == n then 0 else pos;
    var a, b := order[ia], order[ib];
    var k' := NewNode(k, c, Some(a), Some(b));
    assert k'.next == (k.next - {c})[a := c][c := b];
    assert k'.prev == (k.prev - {c})[c := a][b := c];
    var i' := Succ(i, n + 1);
    SpliceIndex(order, pos, c, i);
    SpliceIndex(order, pos, c, i');
    if i != pos && i' != pos {
      var j := if i < pos then i else i - 1;
      RingLink(k, order, j);
      assert order[j] != c && order[Succ(j, n)] != c;
      assert j != ia && Succ(j, n) != ib;
      assert order[j] != a && order[Succ(j, n)] != b;
    }
  }

  /** No id occurs in both sequences. */
  ghost predicate Disjoint(a: seq<nat>, b: seq<nat>) {
    forall i, j :: 0 <= i < |a| && 0 <= j < |b| ==> a[i] != b[j]
  }

  /**
   * The links join sets when both trees are non-empty:
   * setNext(findMax(left), findMin(right)) and then
   * setNext(findMax(right), findMin(left)).
   */
  function JoinLinks(k: Links, a: seq<nat>, b: seq<nat>): Links
    requires 0 < |a| && 0 < |b|
  {
    SetNext(SetNext(k, Some(a[|a| - 1]), Some(b[0])), Some(b[|b| - 1]), Some(a[0]))
  }

  /** Joining two disjoint rings closes one ring over both, left first. */
  lemma JoinRing(k: Links, a: seq<nat>, b: seq<nat>)
    requires RingOf(k, a) && RingOf(k, b) && 0 < |a| && 0 < |b| && Disjoint(a, b)
    ensures RingOf(JoinLinks(k, a, b), a + b)
  {
    var o := a + b;
    forall i, j | 0 <= i < j < |o| ensures o[i] != o[j] {
      if j < |a| {
      } else if i >= |a| {
        assert o[i] == b[i - |a|] && o[j] == b[j - |a|];
      } else {
        assert o[i] == a[i] && o[j] == b[j - |a|];
      }
    }
    forall i | 0 <= i < |o| ensures Linked(JoinLinks(k, a, b), o[i], o[Succ(i, |o|)]) {
      JoinLink(k, a, b, i);
    }
  }

  lemma JoinLink(k: Links, a: seq<nat>, b: seq<nat>, i: nat)
    requires RingOf(k, a) && RingOf(k, b) && 0 < |a| && 0 < |b| && Disjoint(a, b)
    requires i < |a| + |b|
    ensures var o := a + b; Linked(JoinLinks(k, a, b), o[i], o[Succ(i, |o|)])
  {
    var o := a + b;
    var la, lb := a[|a| - 1], b[|b| - 1];
    var k' := JoinLinks(k, a, b);
    assert k'.next == k.next[la := b[0]][lb := a[0]];
    assert k'.prev == k.prev[b[0] := la][a[0] := lb];
    assert la != lb && a[0] != b[0];
    if i < |a| - 1 {
      RingLink(k, a, i);
      assert o[i] == a[i] && o[i + 1] == a[i + 1];
      assert a[i] != la && a[i] != lb && a[i + 1] != a[0] && a[i + 1] != b[0];
    } else if |a| <= i < |o| - 1 {
      var j := i - |a|;
      RingLink(k, b, j);
      assert o[i] == b[j] && o[i + 1] == b[j + 1];
      assert b[j] != la && b[j] != lb && b[j + 1] != a[0] && b[j + 1] != b[0];
    }
  }

  /**
   * Removing the node at position i of a ring of two or more:
   * setNext(p.prev, p.next) links its neighbours to each other.
   */
  function UnlinkLinks(k: Links, p: nat): Links
    requires p in k.prev && p in k.next
  {
    SetNext(k, Some(k.prev[p]), Some(k.next[p]))
  }

  /** Unlinking a node of a ring leaves a ring over the other nodes, in the same order. */
  lemma UnlinkRing(k: Links, order: seq<nat>, i: nat)
    requires RingOf(k, order) && 2 <= |order| && i < |order|
    ensures order[i] in k.prev && order[i] in k.next
    ensures RingOf(UnlinkLinks(k, order[i]), order[..i] + order[i + 1..])
  {
    var n := |order|;
    RingLink(k, order, i);
    RingLink(k, order, Pred(i, n));
    assert Succ(Pred(i, n), n) == i;
    var k' := UnlinkLinks(k, order[i]);
    var o := order[..i] + order[i + 1..];
    forall x, y | 0 <= x < y < |o| ensures o[x] != o[y] {
      UnlinkIndex(order, i, x);
      UnlinkIndex(order, i, y);
    }
    forall j | 0 <= j < |o| ensures Linked(k', o[j], o[Succ(j, |o|)]) {
      UnlinkLink(k, order, i, j);
    }
  }

  /** Where each position of order[..i] + order[i + 1..] comes from. */
  lemma UnlinkIndex(order: seq<nat>, i: nat, j: nat)
    requires i < |order| && j < |order| - 1
    ensures var o := order[..i] + order[i + 1..];
      && |o| == |order| - 1
      && (j < i ==> o[j] == order[j])
      && (j >= i ==> o[j] == order[j + 1])
  {
  }

  lemma UnlinkLink(k: Links, order: seq<nat>, i: nat, j: nat)
    requires RingOf(k, order) && 2 <= |order| && i < |order| && j < |order| - 1
    requires order[i] in k.prev && order[i] in k.next
    ensures var o := order[..i] + order[i + 1..];
      Linked(UnlinkLinks(k, order[i]), o[j], o[Succ(j, |o|)])
  {
    var n := |order|;
    var ip, iq := Pred(i, n), Succ(i, n);
    RingLink(k, order, i);
    RingLink(k, order, ip);
    assert Succ(ip, n) == i;
    var pp, pn := order[ip], order[iq];
    var k' := UnlinkLinks(k, order[i]);
    assert k'.next == k.next[pp := pn] && k'.prev == k.prev[pn := pp];
    var j' := Succ(j, n - 1);
    UnlinkIndex(order, i, j);
    UnlinkIndex(order, i, j');
    var x := if j < i then j else j + 1;
    if x != ip {
      RingLink(k, order, x);
      assert Succ(x, n) != i;
      assert order[x] != pp && order[Succ(x, n)] != pn;
    }
  }

  /**
   * The links split sets, as written: with a and b the two parts in order,
   * setNext(left, min) and then setNext(max, right), where left is the last
   * id of a, right the first of b (each null when its part is empty), and
   * min and max the first and last ids of a + b.
   */
  function SplitLinks(k: Links, a: seq<nat>, b: seq<nat>): Links
    requires 0 < |a + b|
  {
    var o := a + b;
    var left := if |a| > 0 then Some(a[|a| - 1]) else None;
    var right := if |b| > 0 then Some(b[0]) else None;
    SetNext(SetNext(k, left, Some(o[0])), Some(o[|o| - 1]), right)
  }

  /** The split links with setNext(max, right) skipped when the right part is empty. */
  function SplitLinksCorrected(k: Links, a: seq<nat>, b: seq<nat>): Links
    requires 0 < |a + b|
  {
    var o := a + b;
    var left := if |a| > 0 then Some(a[|a| - 1]) else None;
    var k1 := SetNext(k, left, Some(o[0]));
    if |b| > 0 then SetNext(k1, Some(o[|o| - 1]), Some(b[0])) else k1
  }

  /** With a non-empty right part the two versions agree. */
  lemma SplitLinksAgree(k: Links, a: seq<nat>, b: seq<nat>)
    requires 0 < |b|
    ensures SplitLinks(k, a, b) == SplitLinksCorrected(k, a, b)
  {
  }

  /** As written, an empty right part leaves the last node of the left ring with a null next. */
  lemma SplitCutsRing(k: Links, a: seq<nat>)
    requires 0 < |a|
    ensures a[|a| - 1] !in SplitLinks(k, a, []).next
    ensures !RingOf(SplitLinks(k, a, []), a)
  {
    var k' := SplitLinks(k, a, []);
    assert a + [] == a;
    if RingOf(k', a) {
      RingLink(k', a, |a| - 1);
      assert false;
    }
  }

  /** Corrected, splitting a ring over a + b closes one ring over each part. */
  lemma SplitRing(k: Links, a: seq<nat>, b: seq<nat>)
    requires RingOf(k, a + b) && 0 < |a + b|
    ensures RingOf(SplitLinksCorrected(k, a, b), a)
    ensures RingOf(SplitLinksCorrected(k, a, b), b)
  {
    var o := a + b;
    var k' := SplitLinksCorrected(k, a, b);
    assert forall i :: 0 <= i < |a| ==> o[i] == a[i];
    assert forall j :: 0 <= j < |b| ==> o[|a| + j] == b[j];
    forall i | 0 <= i < |a| ensures Linked(k', a[i], a[Succ(i, |a|)]) {
      SplitLinkLeft(k, a, b, i);
    }
    forall j | 0 <= j < |b| ensures Linked(k', b[j], b[Succ(j, |b|)]) {
      SplitLinkRight(k, a, b, j);
    }
  }

  lemma SplitLinkLeft(k: Links, a: seq<nat>, b: seq<nat>, i: nat)
    requires RingOf(k, a + b) && i < |a|
    ensures Linked(SplitLinksCorrected(k, a, b), a[i], a[Succ(i, |a|)])
  {
    var o := a + b;
    var k' := SplitLinksCorrected(k, a, b);
    var la := a[|a| - 1];
    assert o[i] == a[i] && o[0] == a[0] && o[|a| - 1] == la;
    if |b| > 0 {
      var lb := o[|o| - 1];
      assert lb == b[|b| - 1] && o[|a|] == b[0];
      assert k'.next == k.next[la := a[0]][lb := b[0]];
      assert k'.prev == k.prev[a[0] := la][b[0] := lb];
      assert la != lb && a[0] != b[0];
      if i < |a| - 1 {
        RingLink(k, o, i);
        assert o[i + 1] == a[i + 1];
        assert a[i] != la && a[i] != lb && a[i + 1] != a[0] && a[i + 1] != b[0];
      }
    } else {
      assert k'.next == k.next[la := a[0]];
      assert k'.prev == k.prev[a[0] := la];
      if i < |a| - 1 {
        RingLink(k, o, i);
        assert o[i + 1] == a[i + 1];
        assert a[i] != la && a[i + 1] != a[0];
      }
    }
  }

  lemma SplitLinkRight(k: Links, a: seq<nat>, b: seq<nat>, j: nat)
    requires RingOf(k, a + b) && j < |b|
    ensures Linked(SplitLinksCorrected(k, a, b), b[j], b[Succ(j, |b|)])
  {
    var o := a + b;
    var k' := SplitLinksCorrected(k, a, b);
    var lb := b[|b| - 1];
    assert o[|a| + j] == b[j] && o[|o| - 1] == lb && o[|a|] == b[0];
    if |a| > 0 {
      var la := a[|a| - 1];
      assert o[0] == a[0] && o[|a| - 1] == la;
      assert k'.next == k.next[la := a[0]][lb := b[0]];
      assert k'.prev == k.prev[a[0] := la][b[0] := lb];
      assert la != lb && a[0] != b[0];
      if j < |b| - 1 {
        RingLink(k, o, |a| + j);
        assert o[|a| + j + 1] == b[j + 1];
        assert b[j] != la && b[j] != lb && b[j + 1] != a[0] && b[j + 1] != b[0];
      }
    } else {
      assert o == b;
      assert k'.next == k.next[lb := b[0]];
      assert k'.prev == k.prev[b[0] := lb];
      RingLink(k, o, j);
    }
  }

  // ---------------------------------------------------------------------
  // Walking the ring: the iterator's next()
  // ---------------------------------------------------------------------

  /** The values `val` gives to the ids of s, in order. */
  function Values(val: nat -> int, s: seq<nat>): (r: seq<int>)
    ensures |r| == |s|
    ensures forall i :: 0 <= i < |s| ==> r[i] == val(s[i])
  {
    if |s| == 0 then [] else [val(s[0])] + Values(val, s[1..])
  }

  /**
   * n calls of the iterator's next() with its cursor on node cur: each call
   * moves the cursor to cur.next and returns the value of the new cursor's
   * prev.  A null met on the way is a NullPointerException.  `val` gives
   * each node id its value.
   */
  function Walk(k: Links, val: nat -> int, cur: nat, n: nat): (r: Result<seq<int>>)
    ensures r.Success? ==> |r.value| == n
    ensures r.Failure? ==> r.error == NullPointer
    decreases n
  {
    if n == 0 then Success([])
    else if cur !in k.next || k.next[cur] !in k.prev then Failure(NullPointer)
    else
      match Walk(k, val, k.next[cur], n - 1)
      case Failure(e) => Failure(e)
      case Success(rest) => Success([val(k.prev[k.next[cur]])] + rest)
  }

  /** Along a ring, n calls of next() from the i-th id return the values of the next n ids. */
  lemma {:induction false} RingWalk(k: Links, order: seq<nat>, val: nat -> int, i: nat, n: nat)
    requires RingOf(k, order) && i < |order| && i + n <= |order|
    ensures Walk(k, val, order[i], n) == Success(Values(val, order[i..i + n]))
    decreases n
  {
    if n > 0 {
      RingLink(k, order, i);
      if n > 1 {
        assert Succ(i, |order|) == i + 1;
        RingWalk(k, order, val, i + 1, n - 1);
      }
      assert order[i..i + n] == [order[i]] + order[i + 1..i + n];
    }
  }

  /** The as-written split with an empty right part keeps every link of the left ring but the last. */
  lemma CutKeepsLink(k: Links, a: seq<nat>, i: nat)
    requires RingOf(k, a) && i + 1 < |a|
    ensures Linked(SplitLinks(k, a, []), a[i], a[i + 1])
  {
    assert a + [] == a;
    RingLink(k, a, i);
    RingLink(k, a, |a| - 1);
    assert Succ(i, |a|) == i + 1;
    assert a[i] != a[|a| - 1] && a[i + 1] != a[0];
  }

  /**
   * On that cut ring, the calls of next() from the i-th id up to the last
   * reach the null next of the last id and throw.
   */
  lemma {:induction false} CutWalk(k: Links, a: seq<nat>, val: nat -> int, i: nat)
    requires RingOf(k, a) && i < |a|
    ensures Walk(SplitLinks(k, a, []), val, a[i], |a| - i) == Failure(NullPointer)
    decreases |a| - i
  {
    if i == |a| - 1 {
      SplitCutsRing(k, a);
    } else {
      CutKeepsLink(k, a, i);
      CutWalk(k, a, val, i + 1);
    }
  }
}

=== FILE: seqs.dfy ===
/** Facts about integer sequences: sortedness and ranges of consecutive integers. */
module Seqs {

  /** Non-decreasing order, the order an in-order walk of the tree yields. */
  ghost predicate Sorted(s: seq<int>) {
    forall i, j :: 0 <= i < j < |s| ==> s[i] <= s[j]
  }

  /** The consecutive integers a, a+1, ..., b-1. */
  function Range(a: int, b: int): (r: seq<int>)
    ensures |r| == if a <= b then b - a else 0
    ensures forall i :: 0 <= i < |r| ==> r[i] == a + i
  {
    if a >= b then [] else seq(b - a, i => a + i)
  }

  lemma SortedConcat(a: seq<int>, x: int, b: seq<int>)
    requires Sorted(a) && Sorted(b)
    requires forall y :: y in a ==> y <= x
    requires forall y :: y in b ==> x <= y
    ensures Sorted(a + [x] + b)
  {
    var s := a + [x] + b;
    forall i, j | 0 <= i < j < |s|
      ensures s[i] <= s[j]
    {
      if j < |a| {
      } else if i < |a| {
        assert s[i] in a;
        if j > |a| { assert s[j] in b; }
      } else if i == |a| {
        assert s[j] in b;
      }
    }
  }

  lemma SortedParts(a: seq<int>, x: int, b: seq<int>)
    requires Sorted(a + [x] + b)
    ensures Sorted(a) && Sorted(b)
    ensures forall y :: y in a ==> y <= x
    ensures forall y :: y in b ==> x <= y
  {
    var s := a + [x] + b;
    assert forall i :: 0 <= i < |a| ==> s[i] == a[i];
    assert forall i :: 0 <= i < |b| ==> s[|a| + 1 + i] == b[i];
    assert s[|a|] == x;
    forall y | y in a ensures y <= x {
      var i :| 0 <= i < |a| && a[i] == y;
      assert s[i] == y;
    }
    forall y | y in b ensures x <= y {
      var i :| 0 <= i < |b| && b[i] == y;
      assert s[|a| + 1 + i] == y;
    }
  }

  lemma SortedSplit(a: seq<int>, b: seq<int>)
    requires Sorted(a + b)
    ensures Sorted(a) && Sorted(b)
  {
    assert forall i :: 0 <= i < |a| ==> (a + b)[i] == a[i];
    assert forall i :: 0 <= i < |b| ==> (a + b)[|a| + i] == b[i];
  }

  lemma SortedAppend(a: seq<int>, b: seq<int>)
    requires Sorted(a) && Sorted(b)
    requires forall x, y :: x in a && y in b ==> x <= y
    ensures Sorted(a + b)
  {
    var s := a + b;
    forall i, j | 0 <= i < j < |s|
      ensures s[i] <= s[j]
    {
      if i < |a| && j >= |a| {
        assert s[i] in a && s[j] in b;
      }
    }
  }

  /**
   * A range cut into a part below c and a part at or above c: the two parts
   * are the ranges on either side of c.
   */
  lemma {:induction false} RangePartition(s1: seq<int>, s2: seq<int>, a: int, b: int, c: int)
    requires a <= c <= b
    requires s1 + s2 == Range(a, b)
    requires forall x :: x in s1 ==> x < c
    requires forall x :: x in s2 ==> c <= x
    ensures s1 == Range(a, c) && s2 == Range(c, b)
  {
    var s := s1 + s2;
    if |s1| > c - a {
      Member(s1, c - a);
      Member(s, c - a);
      assert false;
    } else if |s1| < c - a {
      Member(s2, 0);
      Member(s, |s1|);
      assert false;
    }
    forall i | 0 <= i < |s1| ensures s1[i] == a + i {
      assert s[i] == s1[i];
    }
    forall i | 0 <= i < |s2| ensures s2[i] == c + i {
      assert s[|s1| + i] == s2[i];
    }
  }

  /** The element at a valid index is a member; stated guardedly so it can be invoked anywhere. */
  lemma Member(s: seq<int>, i: int)
    ensures 0 <= i < |s| ==> s[i] in s
  {
  }

  /** Splicing x into the left part of a + [v] + b at k is splicing it into the whole at k. */
  lemma SpliceLeft(a: seq<int>, v: int, b: seq<int>, k: nat, x: int)
    requires k <= |a|
    ensures var s := a + [v] + b;
      (a[..k] + [x] + a[k..]) + [v] + b == s[..k] + [x] + s[k..]
  {
    var s := a + [v] + b;
    assert s[..k] == a[..k];
    assert s[k..] == a[k..] + [v] + b;
  }

  /** Splicing x into the right part of a + [v] + b at j is splicing it into the whole at |a| + 1 + j. */
  lemma SpliceRight(a: seq<int>, v: int, b: seq<int>, j: nat, x: int)
    requires j <= |b|
    ensures var s, k := a + [v] + b, |a| + 1 + j;
      a + [v] + (b[..j] + [x] + b[j..]) == s[..k] + [x] + s[k..]
  {
    var s, k := a + [v] + b, |a| + 1 + j;
    assert s[..k] == a + [v] + b[..j];
    assert s[k..] == b[j..];
  }

  /** Deleting index i of the left part of a + [v] + b is deleting index i of the whole. */
  lemma DeleteLeft(a: seq<int>, v: int, b: seq<int>, i: nat)
    requires i < |a|
    ensures var s := a + [v] + b;
      s[i] == a[i] && (a[..i] + a[i + 1..]) + [v] + b == s[..i] + s[i + 1..]
  {
    var s := a + [v] + b;
    assert s[..i] == a[..i];
    assert s[i + 1..] == a[i + 1..] + [v] + b;
  }

  /** Deleting index j of the right part of a + [v] + b is deleting index |a| + 1 + j of the whole. */
  lemma DeleteRight(a: seq<int>, v: int, b: seq<int>, j: nat)
    requires j < |b|
    ensures var s, i := a + [v] + b, |a| + 1 + j;
      s[i] == b[j] && a + [v] + (b[..j] + b[j + 1..]) == s[..i] + s[i + 1..]
  {
    var s, i := a + [v] + b, |a| + 1 + j;
    assert s[..i] == a + [v] + b[..j];
    assert s[i + 1..] == b[j + 1..];
  }

  /** Splicing x into a sorted sequence after the elements <= x and before the larger ones keeps it sorted. */
  lemma SortedSplice(s: seq<int>, k: nat, x: int)
    requires Sorted(s) && k <= |s|
    requires forall i :: 0 <= i < k ==> s[i] <= x
    requires forall i :: k <= i < |s| ==> x <= s[i]
    ensures Sorted(s[..k] + [x] + s[k..])
  {
    var r := s[..k] + [x] + s[k..];
    forall i, j | 0 <= i < j < |r| ensures r[i] <= r[j] {
      if j < k {
        assert r[i] == s[i] && r[j] == s[j];
      } else if j == k {
        assert r[i] == s[i];
      } else if i < k {
        assert r[i] == s[i] && r[j] == s[j - 1];
      } else if i == k {
        assert r[j] == s[j - 1];
      } else {
        assert r[i] == s[i - 1] && r[j] == s[j - 1];
      }
    }
  }

  /** Deleting one element of a sorted sequence keeps it sorted. */
  lemma SortedDelete(s: seq<int>, i: nat)
    requires Sorted(s) && i < |s|
    ensures Sorted(s[..i] + s[i + 1..])
  {
    var r := s[..i] + s[i + 1..];
    forall a, b | 0 <= a < b < |r| ensures r[a] <= r[b] {
      var a' := if a < i then a else a + 1;
      var b' := if b < i then b else b + 1;
      assert r[a] == s[a'] && r[b] == s[b'];
    }
  }

  /** Dropping the middle of a sorted sequence leaves it sorted. */
  lemma SortedDrop(a: seq<int>, b: seq<int>, c: seq<int>)
    requires Sorted(a + b + c)
    ensures Sorted(a + c)
  {
    var s := a + b + c;
    forall i, j | 0 <= i < j < |a + c| ensures (a + c)[i] <= (a + c)[j] {
      var i' := if i < |a| then i else i + |b|;
      var j' := if j < |a| then j else j + |b|;
      assert (a + c)[i] == s[i'] && (a + c)[j] == s[j'];
    }
  }

  /** Adjacent ranges concatenate. */
  lemma RangeConcat(a: int, b: int, c: int)
    requires a <= b <= c
    ensures Range(a, b) + Range(b, c) == Range(a, c)
  {
    var r := Range(a, b) + Range(b, c);
    forall i | 0 <= i < |r| ensures r[i] == Range(a, c)[i] {
      if i < b - a {
        assert r[i] == Range(a, b)[i];
      } else {
        assert r[i] == Range(b, c)[i - (b - a)];
      }
    }
  }

  /** The members of a range are the integers from a up to, not including, b. */
  lemma RangeMembers(a: int, b: int)
    ensures forall x :: x in Range(a, b) <==> a <= x < b
  {
    forall x | a <= x < b ensures x in Range(a, b) {
      assert Range(a, b)[x - a] == x;
    }
  }
}

=== FILE: split_join.dfy ===
/**
 * Whole-branch rebalancing, and the two bulk operations built on it: join
 * of two trees whose values are in order, and split at a key.
 *
 * Java's balanceBranch walks parent pointers upwards from a node,
 * rebalancing each node until it is balanced (a rotation pushes the node
 * one level down, so the same node may be rotated several times) and then
 * moving to its parent.  Here the walk is a recursion over the subtree:
 * the node pushed down by a rotation is fixed first, then the new root
 * above it.
 */
module SplitJoin {
  import opened Seqs
  import opened AvlNode

  /** How far the root's children are from each other in height. */
  function Gap(t: Tree): nat {
    if t.Leaf? then 0
    else if Height(t.left) <= Height(t.right) then Height(t.right) - Height(t.left)
    else Height(t.left) - Height(t.right)
  }

  /**
   * Rebalance a node whose children are AVL trees of any heights.  The
   * result is an AVL tree over the same in-order sequence, as tall as the
   * taller child or one more.
   */
  function BalanceBranch(t: Tree): (r: Tree)
    requires t.Node? && Avl(t.left) && Avl(t.right)
    ensures r.Node? && Avl(r) && Elems(r) == Elems(t)
    ensures var hl, hr := Height(t.left), Height(t.right); var m := Max(hl, hr);
      && m <= Height(r) <= m + 1
      && (-1 <= hr - hl <= 1 ==> Height(r) == m + 1)
      && (hr - hl == 2 && BalanceFactor(t.right) == 0 ==> Height(r) == m + 1)
      && (hl - hr == 2 && BalanceFactor(t.left) == 0 ==> Height(r) == m + 1)
    decreases |Elems(t)|, Gap(t), 1
  {
    var p := Update(t);
    if IsBalanced(p) then p
    else if BalanceFactor(p) > MaxBalanceFactor then BranchRightHeavy(t)
    else BranchLeftHeavy(t)
  }

  /**
   * A right-heavy node: one rotation pushes it down to the left; the pushed
   * node is fixed, then the new root above it.
   */
  function BranchRightHeavy(t: Tree): (r: Tree)
    requires t.Node? && Avl(t.left) && Avl(t.right) && Height(t.right) - Height(t.left) >= 2
    ensures r.Node? && Avl(r) && Elems(r) == Elems(t)
    ensures var hl, hr := Height(t.left), Height(t.right);
      && hr <= Height(r) <= hr + 1
      && (hr - hl == 2 && BalanceFactor(t.right) == 0 ==> Height(r) == hr + 1)
    decreases |Elems(t)|, Gap(t), 0
  {
    PushDownLeft(t);
    var q := Balance(t);
    var down := BalanceBranch(q.left);
    BalanceBranch(q.(left := down))
  }

  /**
   * A left-heavy node: one rotation pushes it down to the right; the pushed
   * node is fixed, then the new root above it.
   */
  function BranchLeftHeavy(t: Tree): (r: Tree)
    requires t.Node? && Avl(t.left) && Avl(t.right) && Height(t.left) - Height(t.right) >= 2
    ensures r.Node? && Avl(r) && Elems(r) == Elems(t)
    ensures var hl, hr := Height(t.left), Height(t.right);
      && hl <= Height(r) <= hl + 1
      && (hl - hr == 2 && BalanceFactor(t.left) == 0 ==> Height(r) == hl + 1)
    decreases |Elems(t)|, Gap(t), 0
  {
    PushDownRight(t);
    var q := Balance(t);
    var down := BalanceBranch(q.right);
    BalanceBranch(q.(right := down))
  }

  /**
   * Join two trees, every value of `a` coming before every value of `b` in
   * the result: the minimum of `b` becomes a new root over `a` and the rest
   * of `b`, and that root's branch is rebalanced.
   */
  function Join(a: Tree, b: Tree): (r: Tree)
    requires Avl(a) && Avl(b)
    ensures Avl(r) && Elems(r) == Elems(a) + Elems(b)
    ensures a.Leaf? ==> r == b
    ensures b.Leaf? ==> r == a
  {
    if a.Leaf? then b
    else if b.Leaf? then a
    else
      RemoveMinAvl(b);
      JoinRoot(a, b);
      BalanceBranch(Node(a, FindMin(b).value, RemoveMin(b), 0, 0))
  }

  lemma JoinRoot(a: Tree, b: Tree)
    requires b.Node?
    ensures Elems(Node(a, FindMin(b).value, RemoveMin(b), 0, 0)) == Elems(a) + Elems(b)
  {
    MinSplitsOff(b);
  }

  /** Joining two trees whose concatenated values are sorted gives a search tree. */
  lemma JoinOrdered(a: Tree, b: Tree)
    requires Avl(a) && Avl(b) && Ordered(a) && Ordered(b)
    requires forall x, y :: x in Elems(a) && y in Elems(b) ==> x <= y
    ensures Ordered(Join(a, b))
  {
    OrderedIffSorted(a);
    OrderedIffSorted(b);
    SortedAppend(Elems(a), Elems(b));
    OrderedIffSorted(Join(a, b));
  }

  /**
   * Whether a node holding x belongs to the left part of a split at `key`:
   * values below the key go left, values equal to it go left exactly when
   * `keyLeft` is set.
   */
  predicate GoesLeft(x: int, key: int, keyLeft: bool) {
    x < key || (x == key && keyLeft)
  }

  /**
   * Split a tree at a key.  The descent from the root sends each node to
   * the left or the right part; each part is the chain of nodes sent there,
   * each keeping the subtree on its far side, rebalanced from the bottom up.
   */
  function Split(t: Tree, key: int, keyLeft: bool): (parts: (Tree, Tree))
    requires Avl(t)
    ensures Avl(parts.0) && Avl(parts.1)
    ensures Elems(parts.0) + Elems(parts.1) == Elems(t)
  {
    match t
    case Leaf => (Leaf, Leaf)
    case Node(l, v, rt, _, _) =>
      if GoesLeft(v, key, keyLeft) then
        var parts := Split(rt, key, keyLeft);
        var a := BalanceBranch(Node(l, v, parts.0, 0, 0));
        Regroup(Elems(l), v, Elems(parts.0), Elems(parts.1));
        (a, parts.1)
      else
        var parts := Split(l, key, keyLeft);
        var b := BalanceBranch(Node(parts.1, v, rt, 0, 0));
        Regroup(Elems(parts.0), v, Elems(parts.1), Elems(rt));
        (parts.0, b)
  }

  lemma Regroup(a: seq<int>, v: int, b: seq<int>, c: seq<int>)
    ensures (a + [v] + b) + c == a + [v] + (b + c)
    ensures a + (b + [v] + c) == (a + b) + [v] + c
  {
  }

  /**
   * In a search tree, the left part of a split holds exactly the values
   * that go left and the right part exactly the others.
   */
  lemma {:induction false} SplitPartition(t: Tree, key: int, keyLeft: bool)
    requires Avl(t) && Ordered(t)
    ensures var (a, b) := Split(t, key, keyLeft);
      && (forall x :: x in Elems(a) ==> GoesLeft(x, key, keyLeft))
      && (forall x :: x in Elems(b) ==> !GoesLeft(x, key, keyLeft))
  {
    match t
    case Leaf =>
    case Node(l, v, rt, _, _) =>
      if GoesLeft(v, key, keyLeft) {
        SplitPartition(rt, key, keyLeft);
        forall x | x in Elems(l) ensures GoesLeft(x, key, keyLeft) {
          OrderedBounds(t, x);
        }
      } else {
        SplitPartition(l, key, keyLeft);
        forall x | x in Elems(rt) ensures !GoesLeft(x, key, keyLeft) {
          OrderedBounds(t, x);
        }
      }
  }

  /** Both parts of a split search tree are search trees. */
  lemma SplitOrdered(t: Tree, key: int, keyLeft: bool)
    requires Avl(t) && Ordered(t)
    ensures Ordered(Split(t, key, keyLeft).0) && Ordered(Split(t, key, keyLeft).1)
  {
    var (a, b) := Split(t, key, keyLeft);
    OrderedIffSorted(t);
    SortedSplit(Elems(a), Elems(b));
    OrderedIffSorted(a);
    OrderedIffSorted(b);
  }
}

=== FILE: threading.dfy ===
/**
 * How the tree operations drive the prev/next ring.  A tree is threaded by
 * links k through ids `order` when the links form a ring over `order` and
 * there is one id per value.  The correspondence is positional: order[i]
 * stands for the node holding the i-th in-order value.  Where values are
 * read off the ring, a map `val` from ids to values is tied to the tree by
 * Valued.
 */
module Threading {
  import opened Results
  import opened AvlNode
  import opened Ring
  import opened SplitJoin

  ghost predicate Threaded(k: Links, order: seq<nat>, t: Tree) {
    RingOf(k, order) && |order| == |Elems(t)|
  }

  /**
   * Where Insert hangs its new leaf: in an empty tree (Alone), as the left
   * child of the node at in-order position j (Before), or as its right child
   * (After).
   */
  datatype Splice = Alone | Before(j: nat) | After(j: nat)

  function Offset(s: Splice, n: nat): Splice {
    match s
    case Alone => Alone
    case Before(j) => Before(n + j)
    case After(j) => After(n + j)
  }

  /** The descent of Insert, down to the node whose empty child receives the leaf. */
  function InsertSplice(t: Tree, x: int): Splice {
    match t
    case Leaf => Alone
    case Node(l, v, rt, _, _) =>
      if x < v then
        if l.Leaf? then Before(0) else InsertSplice(l, x)
      else if rt.Leaf? then After(|Elems(l)|)
      else Offset(InsertSplice(rt, x), |Elems(l)| + 1)
  }

  /**
   * The parent of the new leaf is its in-order neighbour: a left child
   * lands just before its parent, a right child just after it.
   */
  lemma {:induction false} InsertSpliceIndex(t: Tree, x: int)
    ensures InsertSplice(t, x).Alone? <==> t.Leaf?
    ensures InsertSplice(t, x).Before? ==>
      InsertSplice(t, x).j < |Elems(t)| && InsertIndex(t, x) == InsertSplice(t, x).j
    ensures InsertSplice(t, x).After? ==>
      InsertSplice(t, x).j < |Elems(t)| && InsertIndex(t, x) == InsertSplice(t, x).j + 1
  {
    match t
    case Leaf =>
    case Node(l, v, rt, _, _) =>
      if x < v {
        if l.Node? {
          InsertSpliceIndex(l, x);
        }
      } else if rt.Node? {
        InsertSpliceIndex(rt, x);
      }
  }

  /** The splice fits a ring of n nodes: Alone only for an empty ring, positions in range. */
  predicate Fits(s: Splice, n: nat) {
    match s
    case Alone => n == 0
    case Before(j) => j < n
    case After(j) => j < n
  }

  /** The in-order position the new node takes. */
  function Position(s: Splice): nat {
    match s
    case Alone => 0
    case Before(j) => j
    case After(j) => j + 1
  }

  /**
   * The links set for a new node c: a singleton links to itself; a left
   * child of p gets prev = p.prev and next = p; a right child of p gets
   * prev = p and next = p.next.
   */
  function SpliceLinks(k: Links, order: seq<nat>, s: Splice, c: nat): Links
    requires RingOf(k, order) && Fits(s, |order|)
  {
    match s
    case Alone => NewSingleton(k, c)
    case Before(j) =>
      RingLink(k, order, Pred(j, |order|));
      assert Succ(Pred(j, |order|), |order|) == j;
      NewNode(k, c, Some(k.prev[order[j]]), Some(order[j]))
    case After(j) =>
      RingLink(k, order, j);
      NewNode(k, c, Some(order[j]), Some(k.next[order[j]]))
  }

  /** Linking a fresh node next to its parent splices it into the ring at Position. */
  lemma SpliceLinksRing(k: Links, order: seq<nat>, s: Splice, c: nat)
    requires RingOf(k, order) && Fits(s, |order|) && c !in order
    ensures Position(s) <= |order|
    ensures RingOf(SpliceLinks(k, order, s, c), order[..Position(s)] + [c] + order[Position(s)..])
  {
    match s
    case Alone =>
      SingletonRing(k, c);
      assert order[..0] + [c] + order[0..] == [c];
    case Before(j) => BeforeRing(k, order, j, c);
    case After(j) => AfterRing(k, order, j, c);
  }

  lemma BeforeRing(k: Links, order: seq<nat>, j: nat, c: nat)
    requires RingOf(k, order) && j < |order| && c !in order
    ensures order[j] in k.prev
    ensures RingOf(NewNode(k, c, Some(k.prev[order[j]]), Some(order[j])), order[..j] + [c] + order[j..])
  {
    var n := |order|;
    var ip := if j == 0 then n - 1 else j - 1;
    assert ip == Pred(j, n) && Succ(ip, n) == j;
    RingLink(k, order, ip);
    SpliceRing(k, order, j, c);
  }

  lemma AfterRing(k: Links, order: seq<nat>, j: nat, c: nat)
    requires RingOf(k, order) && j < |order| && c !in order
    ensures order[j] in k.next
    ensures RingOf(NewNode(k, c, Some(order[j]), Some(k.next[order[j]])), order[..j + 1] + [c] + order[j + 1..])
  {
    RingLink(k, order, j);
    SpliceRing(k, order, j + 1, c);
  }

  /** The links Insert sets for its new node c. */
  function InsertLinks(k: Links, order: seq<nat>, t: Tree, x: int, c: nat): Links
    requires Threaded(k, order, t)
  {
    InsertSpliceIndex(t, x);
    SpliceLinks(k, order, InsertSplice(t, x), c)
  }

  /**
   * After an insert, the ring runs through the new node at exactly the
   * in-order position where Insert put the value.
   */
  lemma InsertRing(k: Links, order: seq<nat>, t: Tree, x: int, c: nat)
    requires Threaded(k, order, t) && c !in order
    ensures var i := InsertIndex(t, x);
      && i <= |order|
      && Threaded(InsertLinks(k, order, t, x, c), order[..i] + [c] + order[i..], Insert(t, x))
      && Elems(Insert(t, x))[i] == x
  {
    var i := InsertIndex(t, x);
    InsertPlacement(t, x);
    InsertSpliceIndex(t, x);
    SpliceLinksRing(k, order, InsertSplice(t, x), c);
    var s := Elems(t);
    assert |Elems(Insert(t, x))| == |s[..i] + [x] + s[i..]|;
    assert (s[..i] + [x] + s[i..])[i] == x;
  }

  /**
   * Remove unlinks the node holding the deleted value: after it the ring
   * runs through the remaining nodes in the new in-order order.
   */
  lemma RemoveRing(k: Links, order: seq<nat>, t: Tree, x: int, i: nat)
    requires Threaded(k, order, t) && 2 <= |order| && RemoveIndex(t, x) == Some(i)
    ensures i < |order| && order[i] in k.prev && order[i] in k.next
    ensures Threaded(UnlinkLinks(k, order[i]), order[..i] + order[i + 1..], Remove(t, x))
  {
    RemovePlacement(t, x);
    UnlinkRing(k, order, i);
  }

  /** The links join sets: none when either tree is empty (it returns early). */
  function JoinTreeLinks(k: Links, ia: seq<nat>, ib: seq<nat>): Links {
    if |ia| == 0 || |ib| == 0 then k else JoinLinks(k, ia, ib)
  }

  /** Joining two threaded trees gives a tree threaded by one ring, left ids first. */
  lemma JoinThreaded(k: Links, ia: seq<nat>, a: Tree, ib: seq<nat>, b: Tree)
    requires Avl(a) && Avl(b) && Threaded(k, ia, a) && Threaded(k, ib, b) && Disjoint(ia, ib)
    ensures Threaded(JoinTreeLinks(k, ia, ib), ia + ib, Join(a, b))
  {
    if |ia| == 0 {
      assert ia + ib == ib;
    } else if |ib| == 0 {
      assert ia + ib == ia;
    } else {
      JoinRing(k, ia, ib);
    }
  }

  /**
   * Splitting a threaded tree, with the links corrected, threads each part
   * by its own ring over its share of the ids.
   */
  lemma SplitThreaded(k: Links, order: seq<nat>, t: Tree, key: int, keyLeft: bool)
    requires Avl(t) && Threaded(k, order, t) && 0 < |order|
    ensures var parts := Split(t, key, keyLeft); var m := |Elems(parts.0)|;
      && m <= |order|
      && Threaded(SplitLinksCorrected(k, order[..m], order[m..]), order[..m], parts.0)
      && Threaded(SplitLinksCorrected(k, order[..m], order[m..]), order[m..], parts.1)
  {
    var parts := Split(t, key, keyLeft);
    var m := |Elems(parts.0)|;
    assert order[..m] + order[m..] == order;
    SplitRing(k, order[..m], order[m..]);
  }

  /**
   * As written, a split whose right part is empty leaves the left part's
   * ring open, although its tree is non-empty.
   */
  lemma SplitRightEmptyCuts(k: Links, order: seq<nat>, t: Tree, key: int, keyLeft: bool)
    requires Avl(t) && Threaded(k, order, t) && 0 < |order|
    requires Split(t, key, keyLeft).1.Leaf?
    ensures |Elems(Split(t, key, keyLeft).0)| == |order|
    ensures !RingOf(SplitLinks(k, order, []), order)
  {
    SplitCutsRing(k, order);
  }

  /** val gives the id at each position of order the value at that position of s. */
  ghost predicate ValuedSeq(val: nat -> int, order: seq<nat>, s: seq<int>) {
    && |order| == |s|
    && forall i :: 0 <= i < |order| ==> val(order[i]) == s[i]
  }

  /** val gives the id at each position the value at that in-order position. */
  ghost predicate Valued(val: nat -> int, order: seq<nat>, t: Tree) {
    ValuedSeq(val, order, Elems(t))
  }

  /** Cutting order where a + b is cut keeps the ids valued by each piece. */
  lemma ValuedCut(val: nat -> int, order: seq<nat>, a: seq<int>, b: seq<int>)
    requires ValuedSeq(val, order, a + b)
    ensures ValuedSeq(val, order[..|a|], a) && ValuedSeq(val, order[|a|..], b)
  {
    forall i | 0 <= i < |a| ensures val(order[..|a|][i]) == a[i] {
      assert (a + b)[i] == a[i];
    }
    forall i | 0 <= i < |b| ensures val(order[|a|..][i]) == b[i] {
      assert order[|a|..][i] == order[|a| + i] && (a + b)[|a| + i] == b[i];
    }
  }

  /**
   * Iterating a threaded tree: starting on the node findMin returns (the
   * first id), size() calls of next() return the tree's in-order values.
   */
  lemma IterateThreaded(k: Links, val: nat -> int, order: seq<nat>, t: Tree)
    requires Threaded(k, order, t) && Valued(val, order, t) && 0 < |order|
    ensures Walk(k, val, order[0], |order|) == Success(Elems(t))
  {
    RingWalk(k, order, val, 0, |order|);
    assert order[0..|order|] == order;
    assert Values(val, order) == Elems(t);
  }

  /**
   * As written, after a split whose right part is empty, iterating the left
   * part throws: its last node's next is null.
   */
  lemma CutIterationFails(k: Links, val: nat -> int, order: seq<nat>, t: Tree, key: int, keyLeft: bool)
    requires Avl(t) && Threaded(k, order, t) && 0 < |order|
    requires Split(t, key, keyLeft).1.Leaf?
    ensures Walk(SplitLinks(k, order, []), val, order[0], |Elems(Split(t, key, keyLeft).0)|) == Failure(NullPointer)
  {
    SplitRightEmptyCuts(k, order, t, key, keyLeft);
    CutWalk(k, order, val, 0);
  }

  /** Two trees threaded by one set of links over the two pieces of order each iterate to their own values. */
  lemma PiecesIterate(k: Links, val: nat -> int, order: seq<nat>, m: nat, a: Tree, b: Tree)
    requires m <= |order| && Threaded(k, order[..m], a) && Threaded(k, order[m..], b)
    requires ValuedSeq(val, order, Elems(a) + Elems(b))
    ensures 0 < m ==> Walk(k, val, order[0], m) == Success(Elems(a))
    ensures m < |order| ==> Walk(k, val, order[m], |order| - m) == Success(Elems(b))
  {
    ValuedCut(val, order, Elems(a), Elems(b));
    if 0 < m {
      IterateThreaded(k, val, order[..m], a);
    }
    if m < |order| {
      IterateThreaded(k, val, order[m..], b);
    }
  }

  /**
   * After a split, links that thread each part over its share of the ids
   * (the corrected links do, by SplitThreaded) iterate either part to that
   * part's values in order.
   */
  lemma SplitIterates(k: Links, val: nat -> int, order: seq<nat>, t: Tree, key: int, keyLeft: bool)
    requires Avl(t) && Valued(val, order, t)
    requires var parts := Split(t, key, keyLeft); var m := |Elems(parts.0)|;
      && m <= |order|
      && Threaded(k, order[..m], parts.0) && Threaded(k, order[m..], parts.1)
    ensures var parts := Split(t, key, keyLeft); var m := |Elems(parts.0)|;
      && (0 < m ==> Walk(k, val, order[0], m) == Success(Elems(parts.0)))
      && (m < |order| ==> Walk(k, val, order[m], |order| - m) == Success(Elems(parts.1)))
  {
    var parts := Split(t, key, keyLeft);
    PiecesIterate(k, val, order, |Elems(parts.0)|, parts.0, parts.1);
  }
}
